=== FILE: README.md ===
# micro-quest, modelled in Dafny

micro-quest is a text adventure in which a hosted language model plays the
game master. The player creates a character in a small form and then types
actions. A background session actor sends each command to the backend and
polls the backend's run until it finishes. It reads back a JSON reply of
quest updates and applies them to a shared session state, which holds the
character, an append-only log and the current quest.

This project models that core as immutable datatypes and pure functions:

- `Game` (game.dfy) is the session actor. `HandleMessage` handles one `Start`
  or `Input`. `RunGame` is the actor loop, written as a left fold over the
  received messages. Each message is paired with the result the backend gave
  for its turn.
- `Conn` (conn.dfy) is the connection:
  - how the assistant's instructions are built;
  - the choice between reusing, updating and creating the assistant;
  - the run-status poll loop;
  - the classification of the reply's first content item;
  - `Send`, which strings these together.

  Every network call is replaced by its result, passed in as a parameter.
- `Schema` (schema.dfy) holds the command and reply types and their serde
  contract. JSON is an abstract value tree (json.dfy). Structs and enums
  marked `deny_unknown_fields` refuse an undeclared key instead of dropping
  it. Encoders give serde's canonical form, and round-trip lemmas tie the
  encoders to the decoders.
- `Character` (character.dfy) is the character builder with its defaults,
  and the read-only `PlayerCharacter`.
- `Text` (text.dfy) is Rust's `str::trim`, using the Unicode `White_Space`
  set.
- The user interface's update functions, as Elm-style transitions:
  - `CharacterView` (view_character.dfy) is the creation form, including the
    trim-and-default logic of `Submit`.
  - `QuestView` (view_quest.dfy) is the quest screen: the game handle, the
    input line and the `waiting` flag.
  - `AppView` (view_app.dfy) routes messages between the two screens.
- `Wrappers` (wrappers.dfy) holds `Option` and `Result`. `Errors`
  (errors.dfy) holds `GameError`.

Facts about the source that shape the model:

- **Poll loop.** A run that reaches `Cancelled`, `Expired` or `Incomplete` is
  polled forever: the loop stops only on `Completed`, `Failed` or a failed status query
  (src/conn.rs:141-203).
- **The character inside `Start`.** `PlayerCharacter` has no
  `deny_unknown_fields` (src/character.rs:39-44), so an extra key inside
  `Start`'s character is skipped (`Schema.StartCharacterToleratesUnknownKey`).
- **Errors.** Failures are the `GameError` values of src/game.rs:10-16, for
  example `SendFailed("Run failed")`, `UnexpectedResponse("JSON error: …")`,
  `UnexpectedResponse("Received image")` and
  `SendFailed("No messages in response")`. An empty message listing is a
  panic (src/conn.rs:162), not an error value, so it is a precondition of
  `Conn.Send`.

## Model

| member | source | states |
|---|---|---|
| Character.NewBuilder | src/character.rs:12-18 | a new builder keeps the given name and defaults race to "human" and class to "fighter" |
| Character.PlayerCharacterBuilder.WithRace | src/character.rs:20-23 | replaces the race and nothing else |
| Character.PlayerCharacterBuilder.WithClass | src/character.rs:25-28 | replaces the class and nothing else |
| Character.PlayerCharacterBuilder.Build | src/character.rs:30-57 | the built character's accessors return exactly the builder's name, race and class |
| Character.BuildRoundTrip | src/character.rs:12-57 | new, with_race, with_class, build, then the accessors give back the three values put in |
| Character.BuildDefaults | src/character.rs:12-36 | without with_race/with_class the character is a human fighter with the given name |
| Text.Trim | src/view/character.rs:53-67 | `str::trim`: the result has no surrounding whitespace, is what remains of the input after cutting whitespace from both ends, and is empty exactly when the input is all whitespace |
| Text.TrimKeepsTrimmed | src/view/character.rs:53-67 | a string already without surrounding whitespace is unchanged by trimming |
| Text.TrimIdempotent | src/view/character.rs:53-67 | trimming twice is trimming once |
| Text.TrimStartCutsBlank | src/view/character.rs:53-67 | what the leading trim removes is all whitespace |
| Text.TrimEndCutsBlank | src/view/character.rs:53-67 | what the trailing trim removes is all whitespace |
| Text.LetterIsNotWhitespace | src/view/character.rs:53-67 | ASCII letters are never trimmed |
| Schema.DefaultQuest | src/schema.rs:26-32 | the default quest has empty title, description and objective summary |
| Schema.DecodeFields | src/schema.rs:6-32 | an object decodes only when every declared field is present, and, under deny_unknown_fields, when every key is a declared field; no declared field is named twice; each decoded field is the decoding of a member with that key, wherever it stands |
| Schema.DecodeFieldsAccepts | src/schema.rs:26-32 | an object whose members name distinct declared fields, with decodable values and together covering every declared field, decodes, in any member order |
| Schema.DecodeElements | src/schema.rs:26-32 | an array decodes as a struct only when it has exactly one element per declared field, element j giving field j |
| Schema.DecodeStruct | src/schema.rs:26-32 | a struct decodes only from an object or array holding every declared field; under deny_unknown_fields an object has no other key; an object names no declared field twice; each field's value comes from the member of that name, or from the element at its declared position |
| Schema.FirstMissing | src/schema.rs:26-32 | no field is reported missing exactly when all declared fields were found; a reported one is declared and absent |
| Schema.DecodeString | src/schema.rs:10 | only a JSON string decodes as a String, to its own text |
| Schema.DecodeQuestDefinition | src/schema.rs:26-32 | a decoded quest came from an object whose keys are all among title, description and objective_summary, no key appears twice, and its fields are the strings under those keys in any order; from an array, they are its three elements in declaration order |
| Schema.DecodeQuestUpdate | src/schema.rs:19-24 | an update decodes only from a single-key object tagged QuestDefinition (with a valid quest) or Description (with a string); conversely a single-key object tagged QuestDefinition with a decodable quest, or Description with a string, decodes |
| Schema.DecodeUpdateList | src/schema.rs:15-17 | the decoded list has one update per element, each the decoding of the element at the same position; the list decodes exactly when every element does |
| Schema.DecodeUpdates | src/schema.rs:16 | updates decode only from a JSON array, element by element |
| Schema.DecodeOutput | src/schema.rs:13-17 | a decoded reply object carries no key besides `updates`, and that key only once, and its updates are the decoding of that member (or of the single array element) |
| Schema.DecodeCharacter | src/character.rs:39-44 | a character decodes only from an object or an array; none of `name`, `race` and `class` appears twice, and its name, race and class are the strings under those keys, or the three array elements in that order |
| Schema.DecodeInput | src/schema.rs:6-11 | a command decodes only from a single-key object; a Start is tagged `Start` and carries the decoding of its payload as the character; a UserInput is tagged and carries its text as a string |
| Schema.EncodeQuestDefinition | src/schema.rs:26-32 | a quest is serialized as an object with its three fields in declaration order, each a string |
| Schema.EncodeQuestUpdate | src/schema.rs:19-24 | an update is serialized externally tagged: a single-key object naming the variant and holding its payload |
| Schema.EncodeOutput | src/schema.rs:13-17 | a reply is serialized as a single `updates` member holding one array element per update |
| Schema.EncodeCharacter | src/character.rs:39-44 | a character is serialized as an object with `name`, `race` and `class` in that order, each a string |
| Schema.EncodeInput | src/conn.rs:114 | the posted command is a single-key object: `Start` holding the encoded character, or `UserInput` holding the text |
| Schema.EncodeUpdateList | src/schema.rs:16 | the encoding has one element per update, each the encoding of the update at the same position |
| Schema.QuestDefinitionRoundTrip | src/schema.rs:26-32 | decoding an encoded quest gives it back |
| Schema.QuestUpdateRoundTrip | src/schema.rs:19-24 | decoding an encoded update gives it back |
| Schema.UpdateListRoundTrip | src/schema.rs:15-17 | decoding an encoded update list gives back the same updates in the same order |
| Schema.OutputRoundTrip | src/schema.rs:13-17 | decoding an encoded reply gives it back |
| Schema.CharacterRoundTrip | src/character.rs:39-44 | decoding an encoded character gives it back |
| Schema.InputRoundTrip | src/schema.rs:6-11 | decoding an encoded command gives it back |
| Schema.QuestDefinitionAnyOrder | src/schema.rs:26-32 | an object naming title, description and objective_summary once each, with string values, decodes in every key order, each field taken from the member of its name |
| Schema.QuestDefinitionRejectsRepeatedKey | src/schema.rs:26-32 | a quest object naming one of its fields twice fails to decode |
| Schema.QuestDefinitionRejectsUnknownKey | src/schema.rs:26-28 | a quest object with any key outside its three fields fails to decode |
| Schema.OutputRejectsUnknownKey | src/schema.rs:13-15 | a reply object with any key besides `updates` fails to decode |
| Schema.OutputAccepts | src/schema.rs:13-24 | a reply whose `updates` array holds only valid updates decodes |
| Schema.QuestUpdateAnyOrder | src/schema.rs:19-32 | a QuestDefinition update whose quest names its three fields once each, with string values, decodes in every key order |
| Schema.OutputRejectsBadUpdate | src/schema.rs:13-24 | one malformed update anywhere in the list makes the whole reply fail |
| Schema.OutputKeepsOrder | src/schema.rs:15-17 | a decoded reply lists its updates in the order of the JSON array |
| Schema.QuestUpdateVariantsClosed | src/schema.rs:19-24 | a decoded update was tagged QuestDefinition or Description, nothing else |
| Schema.InputVariantsClosed | src/schema.rs:6-11 | a decoded command was tagged Start or UserInput, nothing else |
| Schema.StartCharacterToleratesUnknownKey | src/character.rs:39-44 | an extra key inside a Start command's character is skipped and the command still decodes to the same character |
| Conn.AssistantInstructions | src/conn.rs:86-93 | the instructions are AI_INST, then the input schema, then the prologue, in that order and nothing else |
| Conn.InstructionsDetermineSchema | src/conn.rs:86-93 | two instruction strings are equal exactly when the schemas they embed are |
| Conn.ResponseFormatFor | src/conn.rs:95-110 | the response format carries the output schema under the name "quest", the fixed description, and is not strict |
| Conn.RequestFor | src/conn.rs:53-62 | the update and create requests carry AI_NAME, AI_MODEL, the instructions and the response format |
| Conn.FindNamed | src/conn.rs:45-49 | finds the first assistant named AI_NAME; none is found exactly when no assistant has that name |
| Conn.ChooseProvisioning | src/conn.rs:45-83 | create exactly when no assistant has the name; otherwise reuse the first one's id, updating it first exactly when its instructions differ |
| Conn.GetAssistant | src/conn.rs:38-84 | a failed listing is the error; a found assistant's id is returned unless a needed update failed; otherwise the created id or its error |
| Conn.MatchingAssistantNeedsNoUpdate | src/conn.rs:51-67 | an assistant whose instructions match is reused whatever the update call would have done |
| Conn.Connect | src/conn.rs:25-36 | a connection exists exactly when the assistant and the thread were both obtained, and holds their ids |
| Conn.FirstStopAt | src/conn.rs:141-203 | when every earlier status keeps the loop polling, the first Completed, Failed or failed query decides the outcome |
| Conn.FirstStopNone | src/conn.rs:141-203 | when every status keeps the loop polling, it is still running |
| Conn.PollRun | src/conn.rs:141-203 | the loop stops at the first Completed, Failed or failed status query and keeps polling on every other status |
| Conn.LaterPollsIgnored | src/conn.rs:141-203 | statuses after the one that stopped the loop never change its outcome |
| Conn.ClassifyContent | src/conn.rs:172-190 | decodable text gives the reply; empty content gives "No messages in response"; a refusal carries its own text; an image gives "Received image"; undecodable text gives a message starting "JSON error: " |
| Conn.OnlyFirstContentRead | src/conn.rs:172-175 | content items after the first never affect the reply |
| Conn.SubmissionError | src/conn.rs:115-139 | each failed step of posting the command or starting the run is a SendFailed with a non-empty reason |
| Conn.SubmissionErrorsDistinct | src/conn.rs:115-139 | the four steps report four different errors, so the error names the step that failed |
| Conn.Send | src/conn.rs:112-204 | the command is posted as its JSON encoding; each failed step gives its own SendFailed error; a Failed run gives "Run failed"; a completed run's reply is the classification of its content; only a completed, fetched run can succeed |
| Game.NewState | src/game.rs:216-223 | a new state has the given character, an empty log and the default quest |
| Game.NewInstance | src/game.rs:123-141 | a failed connection gives ConnectionFailed; otherwise the instance holds the connection and a new state |
| Game.ProcessUpdate | src/game.rs:143-156 | a QuestDefinition replaces the quest wholesale and leaves the log alone; a Description appends one GM entry and leaves the quest alone; the character never changes |
| Game.Narration | src/game.rs:149-154 | a batch narrates one GM entry per description it holds, and nothing else |
| Game.DescriptionCountOfHead | src/game.rs:171-173 | counting a batch's descriptions from its head gives the same number as counting from its end |
| Game.LastQuestOfTail | src/game.rs:171-173 | the last definition of a batch is its tail's, unless the tail has none |
| Game.LastQuestOfConcat | src/game.rs:227-231 | the last definition of two batches in turn is the second's, or the first's when the second has none |
| Game.ApplyUpdates | src/game.rs:171-173 | after a batch the quest is its last definition (unchanged if none), the log has grown by exactly its descriptions in batch order, and the character is unchanged |
| Game.NarrationStep | src/game.rs:195-197 | the log after the first update, followed by the rest of the batch's narration, is the log followed by the whole batch's narration |
| Game.QuestAfterFirst | src/game.rs:171-173 | the quest after the first update, settled by the rest of the batch, is the quest the whole batch settles |
| Game.HandleMessage | src/game.rs:158-206 | Start sends the stored character and Input its own text; Input logs the player's line first; a backend error is the reply verbatim and leaves the state as it was, apart from that line; success applies the updates; the character never changes |
| Game.Respond | src/game.rs:169-179 | on success the updates are applied (log grown by their narration, quest set to the last definition) and the reply is Ok; on failure the state is left as it was and the reply is the backend's error verbatim |
| Game.InputLineNeverRolledBack | src/game.rs:185-202 | after an Input the player's line sits right after the old log, whatever the backend answered |
| Game.RunGame | src/game.rs:227-231 | handling the messages in order gives one command and one reply per message; the log grows by exactly each exchange's contribution and the quest is the last definition delivered; the character never changes |
| Game.ExchangeLogWritten | src/game.rs:158-206 | one exchange adds exactly its own log contribution |
| Game.SessionLogStep | src/game.rs:227-231 | the log after the first exchange, followed by the rest of the exchanges' contributions, is the whole session's log |
| Game.SessionQuestAfterFirst | src/game.rs:227-231 | the quest after the first exchange, settled by the rest, is the quest the whole session settles |
| Game.RepliesForwarded | src/game.rs:174-178 | each caller gets Ok or its own turn's backend error verbatim |
| Game.CommandsSent | src/game.rs:161-192 | each Start sends the session's character and each Input its own text, one command per message in order |
| Game.RunGameStep | src/game.rs:227-231 | a session is its first turn followed by the rest of the session from the state that turn left |
| Game.RunGameSplits | src/game.rs:227-231 | handling a then b is handling a + b: the fold composes in receive order |
| Game.LogAppendOnly | src/game.rs:209-214 | the old log is always a prefix of the later log |
| Game.OpeningScenario | src/game.rs:161-180 | Jim the Human Fighter starts; the reply defines "The Lost Coin" then narrates the tavern, so the quest is titled "The Lost Coin" and the log holds that one GM line |
| CharacterView.New | src/view/character.rs:34-36 | the form starts with every field empty |
| CharacterView.DefaultsAreClean | src/view/character.rs:53-67 | "Jim", "Human" and "Fighter" are non-empty and have no surrounding whitespace |
| CharacterView.FieldOrDefault | src/view/character.rs:53-57 | a submitted field is never empty and has no surrounding whitespace; a blank field gives the fallback, any other field its trimmed text |
| CharacterView.Submitted | src/view/character.rs:52-72 | the submitted character's name, race and class are non-empty and have no surrounding whitespace |
| CharacterView.Update | src/view/character.rs:38-75 | each edit overwrites only its own field and asks for nothing; Submit leaves the form as it is and hands over the submitted character, whose fields are non-empty and clean |
| CharacterView.SubmitFallsBack | src/view/character.rs:53-67 | a blank name, race or class becomes "Jim", "Human" or "Fighter"; any other value is used trimmed |
| CharacterView.NameIsDefaultIff | src/view/character.rs:53-57 | the submitted name is "Jim" exactly when the field was blank or trims to "Jim" |
| CharacterView.CleanFieldsKept | src/view/character.rs:52-72 | fields typed without surrounding whitespace reach the character unchanged |
| CharacterView.BlankFormSubmitsJim | src/view/character.rs:52-72 | submitting the empty form gives Jim the Human Fighter |
| QuestView.New | src/view/quest.rs:34-44 | a new quest screen has no game, an empty input line, is waiting, and asks for the game to be loaded for the character |
| QuestView.Update | src/view/quest.rs:46-91 | Loaded stores and starts the handle; Started and Response clear waiting whatever the result; an edit sets only the input line; with a game, a submit sends the line, clears it and waits, and without one it does nothing |
| QuestView.Drive | src/view/quest.rs:46-91 | once a game handle is present it stays present |
| QuestView.GamePresentIff | src/view/quest.rs:46-91 | a game is present after a run of messages exactly when one was before or some message loaded one |
| QuestView.SubmitWithoutGameIgnored | src/view/quest.rs:64-86 | before a game has loaded, submitting the input changes nothing and runs nothing |
| QuestView.TurnRoundTrip | src/view/quest.rs:46-91 | load, type, submit, answer: the line goes to the loaded game, is cleared while waiting, and the answer clears waiting and snaps the log to its end |
| AppView.NewApp | src/view/mod.rs:23-31 | the application opens on the character-creation screen with an empty form |
| AppView.Update | src/view/mod.rs:45-79 | a message for the other screen is ignored; a submitted character replaces the form with a new quest screen for it; every other outcome keeps the current screen's variant |
| AppView.Drive | src/view/mod.rs:45-79 | once on the quest screen, the application stays there |
| AppView.CreateScreenStep | src/view/mod.rs:47-64 | on the creation screen, exactly a Submit leaves it |
| AppView.QuestReachedIffSubmitted | src/view/mod.rs:45-79 | from the creation screen, the quest screen is reached exactly when some message submits the form |
| AppView.SubmitOpensQuest | src/view/mod.rs:47-64 | a submit on the creation screen opens a waiting quest screen with no game and loads a game for the character the form builds |
| AppView.OpeningSubmit | src/view/mod.rs:23-64 | submitting the untouched opening form opens a waiting quest screen and loads a game for Jim the Human Fighter |

## Left out

- Network calls are not modelled: listing, updating and creating assistants, creating threads, posting messages, starting, retrieving and listing runs and messages. Their results are parameters (`listing`, `updated`, `created`, `thread`, `submission`, `polls`, `fetch`, and `backend` in `Game`).
- The one-second sleep between polls (src/conn.rs:202) is left out. Time does not appear in the model, and a finite sequence of observed statuses stands for the unbounded loop; `Conn.SendOutcome.Polling` is "still running when the observations ran out".
- Game.RunGame: pairs every message with a finished backend result. In the source, a turn whose run never reaches `Completed` or `Failed` blocks `run_game` forever (src/game.rs:227-229): every later message then waits forever, and the quest screen stays `waiting`. `Conn.Send` reports such a turn as `Conn.SendOutcome.Polling`; it has no `Game.Exchange`, so every session `Game.RunGame` describes ends before it.
- JSON text parsing and printing are left out, and so is `schemars` schema generation. Text content carries an already parsed `Json.Document`, and the two schema documents are string parameters.
- `Schema.ErrorMessage` keeps serde's error kinds and the offending name, but not its exact wording, its list of expected names, or line/column positions. `Conn.ClassifyContent` therefore promises only the "JSON error: " prefix.
- Concurrency is left out: `Arc<RwLock>`, the `mpsc`/`oneshot` channels and `tokio::spawn` (src/game.rs:72-114). The actor is the sequential fold `Game.RunGame`, which is what the single receiving loop guarantees.
- `GameBuilder`, the API key and the environment fallback (src/game.rs:48-90) are left out. `Connection::new` ignores the key, and reading the environment is I/O. A missing variable panics there.
- The request-builder failures (`.build()?` in src/conn.rs:28, 63, 79) are folded into the failure of the call they prepare.
- Logging (`info!`, `debug!`, `error!`) is left out.
- Rendering is left out: the iced `view` functions, `Task`, `Element` and `scrollable::snap_to`. Tasks are named by what they would do (`QuestView.Task`, `AppView.Effect`). `main` in src/view/mod.rs:11-17 and src/main.rs are start-up only.
- `GameError::Custom` is declared but never produced by the source, and appears only in the datatype.
- The `expect` on `Loaded(Err(_))` (src/view/quest.rs:49) panics. It is the precondition `!QuestView.LoadFailed(m)` of `QuestView.Update`, and `!AppView.QuestPanics(st, m)` of `AppView.Update`.
- The `unwrap` on an empty message listing (src/conn.rs:162) panics. It is a precondition of `Conn.Send`.
- `GameHandle::start` and `GameHandle::input` (src/game.rs:92-109) only enqueue a message and await its reply. Each is one `Exchange` of `Game.RunGame`. The quest screen's handle is an opaque identity, `QuestView.GameHandle`.

=== FILE: character.dfy ===
/** The player character and the builder that produces it. */
module Character {

  /** A finished character; its three fields are only ever read. */
  datatype PlayerCharacter = PlayerCharacter(name: string, race: string, characterClass: string) {

    function Name(): string { name }

    function Race(): string { race }

    function Class(): string { characterClass }
  }

  /** Collects the three fields before `Build` freezes them. */
  datatype PlayerCharacterBuilder = PlayerCharacterBuilder(name: string, race: string, characterClass: string) {

    /** Replaces the race and keeps the rest. */
    function WithRace(race': string): (b: PlayerCharacterBuilder)
      ensures b.race == race'
      ensures b.name == name && b.characterClass == characterClass
    {
      this.(race := race')
    }

    /** Replaces the class and keeps the rest. */
    function WithClass(class': string): (b: PlayerCharacterBuilder)
      ensures b.characterClass == class'
      ensures b.name == name && b.race == race
    {
      this.(characterClass := class')
    }

    /** The character whose accessors return exactly the builder's fields. */
    function Build(): (pc: PlayerCharacter)
      ensures pc.Name() == name && pc.Race() == race && pc.Class() == characterClass
    {
      PlayerCharacter(name, race, characterClass)
    }
  }

  const DefaultRace: string := "human"
  const DefaultClass: string := "fighter"

  /** A builder holding `name` and the default race and class. */
  function NewBuilder(name: string): (b: PlayerCharacterBuilder)
    ensures b.name == name && b.race == DefaultRace && b.characterClass == DefaultClass
  {
    PlayerCharacterBuilder(name, DefaultRace, DefaultClass)
  }

  /** Setting race and class on a fresh builder yields exactly those three values. */
  lemma BuildRoundTrip(name: string, race: string, class': string)
    ensures var pc := NewBuilder(name).WithRace(race).WithClass(class').Build();
            pc.Name() == name && pc.Race() == race && pc.Class() == class'
  {
  }

  /** Without `WithRace`/`WithClass` the built character is a human fighter. */
  lemma BuildDefaults(name: string)
    ensures NewBuilder(name).Build() == PlayerCharacter(name, "human", "fighter")
  {
  }
}

=== FILE: conn.dfy ===
/**
 * The connection to the backend (src/conn.rs) with every network call replaced
 * by its result: the assistant listing, the update and create calls, the
 * successive run statuses, and the message finally fetched.
 */
module Conn {
  import opened Wrappers
  import Json
  import Schema
  import opened Errors

  const AiName: string := "uQuest GM"
  const AiModel: string := "gpt-4o"
  const AiResponseDesc: string := "A series of updates to the game state, including text to be output to the user. A QuestDefinition is sent as a response to a Start message."
  const AiInst: string := "You are the game master for a text-based adventure game. You will run a session containing a simple quest for a single player character. You must not take any actions on behalf of the player character, the player character has full control over what they do. Suggest some possible actions to the user in each description. You will receive commands in JSON format according to the following schema:\n\n"
  const AiInstPrologue: string := "\n\nYou may respond to a command with multiple different 'updates'. Only the Description update will be presented to the user, so any description or dialogue intended for the user must be in a Description update."

  // ---------------------------------------------------------------------------
  // Assistant provisioning
  // ---------------------------------------------------------------------------

  /**
   * The assistant's instructions: the fixed preamble, the JSON schema document
   * of `AIInput` (derived outside this model), then the fixed prologue.
   */
  function AssistantInstructions(inputSchema: string): (inst: string)
    ensures |inst| == |AiInst| + |inputSchema| + |AiInstPrologue|
    ensures inst[..|AiInst|] == AiInst
    ensures inst[|AiInst|..|AiInst| + |inputSchema|] == inputSchema
    ensures inst[|AiInst| + |inputSchema|..] == AiInstPrologue
  {
    AiInst + inputSchema + AiInstPrologue
  }

  /** Two sets of instructions differ exactly when the schemas they embed differ. */
  lemma InstructionsDetermineSchema(schema1: string, schema2: string)
    ensures AssistantInstructions(schema1) == AssistantInstructions(schema2) <==> schema1 == schema2
  {
    if AssistantInstructions(schema1) == AssistantInstructions(schema2) {
      assert |schema1| == |schema2|;
    }
  }

  /** What the backend knows of an existing assistant. */
  datatype Assistant = Assistant(id: string, name: Option<string>, instructions: Option<string>)

  /** The JSON-schema response format: `AIOutput`'s schema document, not enforced strictly. */
  datatype ResponseFormat = JsonSchema(description: string, name: string, schema: string, strict: bool)

  /** The fields sent when an assistant is created or updated. */
  datatype AssistantRequest = AssistantRequest(name: string, model: string, instructions: string, responseFormat: ResponseFormat)

  function ResponseFormatFor(outputSchema: string): (f: ResponseFormat)
    ensures f.schema == outputSchema && f.description == AiResponseDesc
    ensures f.name == "quest" && !f.strict
  {
    JsonSchema(AiResponseDesc, "quest", outputSchema, false)
  }

  /** The one request both the update and the create path send. */
  function RequestFor(inputSchema: string, outputSchema: string): (req: AssistantRequest)
    ensures req.name == AiName && req.model == AiModel
    ensures req.instructions == AssistantInstructions(inputSchema)
    ensures req.responseFormat == ResponseFormatFor(outputSchema)
  {
    AssistantRequest(AiName, AiModel, AssistantInstructions(inputSchema), ResponseFormatFor(outputSchema))
  }

  /** The position of the first assistant named `AiName`, as `Iterator::find` returns it. */
  function FindNamed(assistants: seq<Assistant>): (r: Option<nat>)
    ensures r.Some? ==> r.value < |assistants| && assistants[r.value].name == Some(AiName)
    ensures r.Some? ==> forall j :: 0 <= j < r.value ==> assistants[j].name != Some(AiName)
    ensures r.None? <==> forall j :: 0 <= j < |assistants| ==> assistants[j].name != Some(AiName)
  {
    if |assistants| == 0 then None
    else if assistants[0].name == Some(AiName) then Some(0)
    else match FindNamed(assistants[1..])
      case None => None
      case Some(k) => Some(k + 1)
  }

  /** The three ways `get_assistant` can end up with an assistant. */
  datatype Provisioning =
    | Reuse(id: string)
    | UpdateThenReuse(id: string, request: AssistantRequest)
    | Create(request: AssistantRequest)

  /**
   * Reuse the first assistant called `AiName`, updating it in place when its
   * stored instructions are not the expected ones; create one when none has
   * that name.
   */
  function ChooseProvisioning(assistants: seq<Assistant>, inputSchema: string, outputSchema: string)
    : (p: Provisioning)
    ensures p.Create? <==> forall j :: 0 <= j < |assistants| ==> assistants[j].name != Some(AiName)
    ensures !p.Create? ==> FindNamed(assistants).Some? && p.id == assistants[FindNamed(assistants).value].id
    ensures p.UpdateThenReuse? <==>
              FindNamed(assistants).Some? &&
              assistants[FindNamed(assistants).value].instructions != Some(AssistantInstructions(inputSchema))
    ensures !p.Reuse? ==> p.request == RequestFor(inputSchema, outputSchema)
  {
    match FindNamed(assistants)
    case None => Create(RequestFor(inputSchema, outputSchema))
    case Some(k) =>
      if assistants[k].instructions != Some(AssistantInstructions(inputSchema)) then
        UpdateThenReuse(assistants[k].id, RequestFor(inputSchema, outputSchema))
      else Reuse(assistants[k].id)
  }

  /**
   * `get_assistant`, given the listing, the outcome of the update call and the
   * id (or failure) the create call returns. The result is the reused
   * assistant's id or the created one's; any failed call is the error.
   */
  function GetAssistant(listing: Result<seq<Assistant>, string>, inputSchema: string, outputSchema: string,
                        updated: Result<(), string>, created: Result<string, string>)
    : (r: Result<string, string>)
    ensures listing.Err? ==> r == Err(listing.error)
    ensures listing.Ok? && FindNamed(listing.value).Some? ==>
              var a := listing.value[FindNamed(listing.value).value];
              if a.instructions == Some(AssistantInstructions(inputSchema)) || updated.Ok? then r == Ok(a.id)
              else r == Err(updated.error)
    ensures listing.Ok? && FindNamed(listing.value).None? ==> r == created
  {
    var assistants :- listing;
    match ChooseProvisioning(assistants, inputSchema, outputSchema)
    case Reuse(id) => Ok(id)
    case UpdateThenReuse(id, _) => if updated.Ok? then Ok(id) else Err(updated.error)
    case Create(_) => created
  }

  /** An assistant whose instructions already match is reused whatever the update call would do. */
  lemma MatchingAssistantNeedsNoUpdate(assistants: seq<Assistant>, inputSchema: string, outputSchema: string,
                                       u1: Result<(), string>, u2: Result<(), string>,
                                       created: Result<string, string>)
    requires FindNamed(assistants).Some?
    requires assistants[FindNamed(assistants).value].instructions == Some(AssistantInstructions(inputSchema))
    ensures GetAssistant(Ok(assistants), inputSchema, outputSchema, u1, created)
         == GetAssistant(Ok(assistants), inputSchema, outputSchema, u2, created)
         == Ok(assistants[FindNamed(assistants).value].id)
  {
  }

  /** An open connection: the assistant and the conversation thread it talks in. */
  datatype Connection = Connection(assistantId: string, threadId: string)

  /** `Connection::new`: provision the assistant, then open one thread. */
  function Connect(listing: Result<seq<Assistant>, string>, inputSchema: string, outputSchema: string,
                   updated: Result<(), string>, created: Result<string, string>, thread: Result<string, string>)
    : (r: Result<Connection, string>)
    ensures r.Ok? <==> GetAssistant(listing, inputSchema, outputSchema, updated, created).Ok? && thread.Ok?
    ensures r.Ok? ==> (r.value.assistantId == GetAssistant(listing, inputSchema, outputSchema, updated, created).value
                       && r.value.threadId == thread.value)
  {
    var assistantId :- GetAssistant(listing, inputSchema, outputSchema, updated, created);
    var threadId :- thread;
    Ok(Connection(assistantId, threadId))
  }

  // ---------------------------------------------------------------------------
  // Polling the run
  // ---------------------------------------------------------------------------

  /** The statuses a backend run reports. */
  datatype RunStatus =
    | Queued | InProgress | RequiresAction | Cancelling | Cancelled | Failed | Completed | Incomplete | Expired

  /** One status query: the status read, or the query's failure. */
  datatype Poll = Retrieved(status: RunStatus) | RetrieveFailed

  /** The loop sleeps and asks again after this poll: any status but `Completed` and `Failed`. */
  predicate KeepsPolling(p: Poll) {
    p.Retrieved? && p.status != Completed && p.status != Failed
  }

  /** Where the loop stopped, counted in polls before the stopping one. */
  datatype PollOutcome = RunCompleted(at: nat) | RunFailed(at: nat) | QueryFailed(at: nat) | StillRunning {

    function Shift(): PollOutcome {
      match this
      case RunCompleted(k) => RunCompleted(k + 1)
      case RunFailed(k) => RunFailed(k + 1)
      case QueryFailed(k) => QueryFailed(k + 1)
      case StillRunning => StillRunning
    }
  }

  /** The outcome a stopping poll gives when it is the `at`-th. */
  function StopAt(p: Poll, at: nat): PollOutcome
    requires !KeepsPolling(p)
  {
    if p.RetrieveFailed? then QueryFailed(at)
    else if p.status == Completed then RunCompleted(at)
    else RunFailed(at)
  }

  /** Reference definition: the outcome of the first poll that stops the loop. */
  function FirstStop(polls: seq<Poll>): PollOutcome {
    if |polls| == 0 then StillRunning
    else if KeepsPolling(polls[0]) then FirstStop(polls[1..]).Shift()
    else StopAt(polls[0], 0)
  }

  /** When every poll before `k` keeps the loop going, the `k`-th decides. */
  lemma {:induction false} FirstStopAt(polls: seq<Poll>, k: nat)
    requires k < |polls| && !KeepsPolling(polls[k])
    requires forall j :: 0 <= j < k ==> KeepsPolling(polls[j])
    ensures FirstStop(polls) == StopAt(polls[k], k)
  {
    if k > 0 {
      FirstStopAt(polls[1..], k - 1);
    }
  }

  /** When no poll stops the loop, it is still running. */
  lemma {:induction false} FirstStopNone(polls: seq<Poll>)
    requires forall j :: 0 <= j < |polls| ==> KeepsPolling(polls[j])
    ensures FirstStop(polls) == StillRunning
  {
    if |polls| > 0 {
      FirstStopNone(polls[1..]);
    }
  }

  /**
   * The poll loop of `send`: it stops at the first `Completed`, `Failed` or
   * failed query and goes round again on every other status.
   */
  method PollRun(polls: seq<Poll>) returns (o: PollOutcome)
    ensures o == FirstStop(polls)
    ensures o.StillRunning? <==> forall j :: 0 <= j < |polls| ==> KeepsPolling(polls[j])
    ensures !o.StillRunning? ==> o.at < |polls| && !KeepsPolling(polls[o.at])
                                 && forall j :: 0 <= j < o.at ==> KeepsPolling(polls[j])
    ensures o.RunCompleted? ==> polls[o.at] == Retrieved(Completed)
    ensures o.RunFailed? ==> polls[o.at] == Retrieved(Failed)
    ensures o.QueryFailed? ==> polls[o.at] == RetrieveFailed
  {
    var i := 0;
    while i < |polls|
      invariant i <= |polls|
      invariant forall j :: 0 <= j < i ==> KeepsPolling(polls[j])
    {
      if !KeepsPolling(polls[i]) {
        FirstStopAt(polls, i);
        o := StopAt(polls[i], i);
        return;
      }
      i := i + 1;
    }
    FirstStopNone(polls);
    o := StillRunning;
  }

  /** Statuses observed after the loop stopped cannot change its outcome. */
  lemma {:induction false} LaterPollsIgnored(polls: seq<Poll>, later: seq<Poll>)
    requires !FirstStop(polls).StillRunning?
    ensures FirstStop(polls + later) == FirstStop(polls)
  {
    assert (polls + later)[0] == polls[0];
    if KeepsPolling(polls[0]) {
      assert (polls + later)[1..] == polls[1..] + later;
      LaterPollsIgnored(polls[1..], later);
    }
  }

  // ---------------------------------------------------------------------------
  // Reading the reply
  // ---------------------------------------------------------------------------

  /** A content item of the backend's message; the text is taken as already parsed JSON. */
  datatype MessageContent = Text(body: Json.Document) | ImageFile | ImageUrl | Refusal(refusal: string)

  const JsonErrorPrefix: string := "JSON error: "

  /** The `JSON error: ` message for a text item that is not a valid `AIOutput`. */
  function JsonErrorMessage(body: Json.Document): string {
    match body
    case SyntaxError(detail) => JsonErrorPrefix + detail
    case WellFormed(v) =>
      match Schema.DecodeOutput(v)
      case Err(e) => JsonErrorPrefix + Schema.ErrorMessage(e)
      case Ok(_) => JsonErrorPrefix
  }

  /**
   * The reply read from the message's first content item; later items are
   * never looked at.
   */
  function ClassifyContent(content: seq<MessageContent>): (r: Result<Schema.AIOutput, GameError>)
    ensures r.Ok? <==> |content| > 0 && content[0].Text? && content[0].body.WellFormed?
                       && Schema.DecodeOutput(content[0].body.value).Ok?
    ensures r.Ok? ==> Schema.DecodeOutput(content[0].body.value) == Ok(r.value)
    ensures |content| == 0 <==> r == Err(SendFailed("No messages in response"))
    ensures r.Err? && r.error.RefusalResponse? <==> |content| > 0 && content[0].Refusal?
    ensures r.Err? && r.error.RefusalResponse? ==> r.error.reason == content[0].refusal
    ensures r.Err? && r.error.UnexpectedResponse? <==>
              |content| > 0 && !content[0].Refusal? && !r.Ok?
    ensures r.Err? && r.error.UnexpectedResponse? ==>
              if content[0].Text? then JsonErrorPrefix <= r.error.reason
              else r.error.reason == "Received image"
  {
    if |content| == 0 then Err(SendFailed("No messages in response"))
    else
      match content[0]
      case Text(body) =>
        (match body
         case SyntaxError(_) => Err(UnexpectedResponse(JsonErrorMessage(body)))
         case WellFormed(v) =>
           match Schema.DecodeOutput(v)
           case Ok(o) => Ok(o)
           case Err(_) => Err(UnexpectedResponse(JsonErrorMessage(body))))
      case ImageFile => Err(UnexpectedResponse("Received image"))
      case ImageUrl => Err(UnexpectedResponse("Received image"))
      case Refusal(text) => Err(RefusalResponse(text))
  }

  /** Only the first content item decides the reply. */
  lemma OnlyFirstContentRead(first: MessageContent, rest1: seq<MessageContent>, rest2: seq<MessageContent>)
    ensures ClassifyContent([first] + rest1) == ClassifyContent([first] + rest2)
  {
  }

  // ---------------------------------------------------------------------------
  // One turn
  // ---------------------------------------------------------------------------

  /** How far posting the command and starting the run got. */
  datatype Submission = Submitted | BuildMessageFailed | AddMessageFailed | BuildRunFailed | CreateRunFailed

  /** The error each failed submission step reports. */
  function SubmissionError(s: Submission): (e: GameError)
    requires !s.Submitted?
    ensures e.SendFailed? && e.reason != []
  {
    match s
    case BuildMessageFailed => SendFailed("Could not build message")
    case AddMessageFailed => SendFailed("Could not add message to thread")
    case BuildRunFailed => SendFailed("Could not build run request")
    case CreateRunFailed => SendFailed("Could not create run")
  }

  /** Each failed step reports its own reason, so the error names the step that failed. */
  lemma SubmissionErrorsDistinct(a: Submission, b: Submission)
    requires !a.Submitted? && !b.Submitted?
    ensures SubmissionError(a) == SubmissionError(b) <==> a == b
  {
  }

  /**
   * What fetching the reply after completion gave: the listing failed, the
   * listing was empty, the retrieval of the listed message failed, or the
   * message's content items.
   */
  datatype Fetch = ListFailed | EmptyList | RetrieveMessageFailed | Fetched(content: seq<MessageContent>)

  /** A turn either replied or was still polling when the observed statuses ran out. */
  datatype SendOutcome = Replied(result: Result<Schema.AIOutput, GameError>) | Polling

  /**
   * `Connection::send`. The command is posted as the JSON encoding of the
   * `AIInput`; `posted` is that message, absent when it could not be built.
   * An empty message listing after completion makes the source panic, so it
   * is excluded.
   */
  method Send(command: Schema.AIInput, submission: Submission, polls: seq<Poll>, fetch: Fetch)
    returns (posted: Option<Json.Value>, outcome: SendOutcome)
    requires submission.Submitted? && FirstStop(polls).RunCompleted? ==> !fetch.EmptyList?
    ensures posted.Some? <==> !submission.BuildMessageFailed?
    ensures posted.Some? ==> Schema.DecodeInput(posted.value) == Ok(command)
    ensures !submission.Submitted? ==> outcome == Replied(Err(SubmissionError(submission)))
    ensures submission.Submitted? ==>
              (outcome.Polling? <==> forall j :: 0 <= j < |polls| ==> KeepsPolling(polls[j]))
    ensures submission.Submitted? && FirstStop(polls).RunFailed? ==> outcome == Replied(Err(SendFailed("Run failed")))
    ensures submission.Submitted? && FirstStop(polls).QueryFailed? ==>
              outcome == Replied(Err(SendFailed("Could not query run status")))
    ensures submission.Submitted? && FirstStop(polls).RunCompleted? && fetch.ListFailed? ==>
              outcome == Replied(Err(SendFailed("Could not retrieve response")))
    ensures submission.Submitted? && FirstStop(polls).RunCompleted? && fetch.RetrieveMessageFailed? ==>
              outcome == Replied(Err(SendFailed("Could not retrieve message")))
    ensures submission.Submitted? && FirstStop(polls).RunCompleted? && fetch.Fetched? ==>
              outcome == Replied(ClassifyContent(fetch.content))
    ensures outcome.Replied? && outcome.result.Ok? ==>
              submission.Submitted? && FirstStop(polls).RunCompleted? && fetch.Fetched?
  {
    if submission.BuildMessageFailed? {
      posted := None;
    } else {
      Schema.InputRoundTrip(command);
      posted := Some(Schema.EncodeInput(command));
    }
    if !submission.Submitted? {
      outcome := Replied(Err(SubmissionError(submission)));
      return;
    }
    var stop := PollRun(polls);
    match stop {
      case StillRunning =>
        outcome := Polling;
      case QueryFailed(_) =>
        outcome := Replied(Err(SendFailed("Could not query run status")));
      case RunFailed(_) =>
        outcome := Replied(Err(SendFailed("Run failed")));
      case RunCompleted(_) =>
        match fetch {
          case ListFailed =>
            outcome := Replied(Err(SendFailed("Could not retrieve response")));
          case RetrieveMessageFailed =>
            outcome := Replied(Err(SendFailed("Could not retrieve message")));
          case Fetched(content) =>
            outcome := Replied(ClassifyContent(content));
        }
    }
  }
}

=== FILE: errors.dfy ===
/** `GameError` (src/game.rs), shared by the connection and the session actor. */
module Errors {

  datatype GameError =
    | ConnectionFailed
    | SendFailed(reason: string)
    | UnexpectedResponse(reason: string)
    | RefusalResponse(reason: string)
    | Custom(reason: string)
}

=== FILE: game.dfy ===
/**
 * The session actor (src/game.rs). The actor drains its queue one message at
 * a time; here that is a left fold over the received messages, each paired
 * with the reply the backend gave to the turn it started.
 */
module Game {
  import opened Wrappers
  import Character
  import Schema
  import Conn
  import opened Errors

  datatype GamePlayer = GM | PC

  datatype GameLogEntry = GameLogEntry(player: GamePlayer, content: string)

  /** The shared session record: set-once character, append-only log, last-write-wins quest. */
  datatype GameState = GameState(character: Character.PlayerCharacter, log: seq<GameLogEntry>, quest: Schema.QuestDefinition)

  /** The commands the actor accepts; the reply channel is the `reply` of a `Turn`. */
  datatype GameMessage = Start | Input(content: string)

  /** `GameState::new`: the character, nothing logged, the default quest. */
  function NewState(character: Character.PlayerCharacter): (s: GameState)
    ensures s.character == character
    ensures s.log == []
    ensures s.quest.title == [] && s.quest.description == [] && s.quest.objectiveSummary == []
  {
    GameState(character, [], Schema.DefaultQuest())
  }

  /** A running actor: its connection and the state it alone writes. */
  datatype GameInstance = GameInstance(connection: Conn.Connection, state: GameState)

  /** `GameInstance::new`: a failed connection becomes `ConnectionFailed`, otherwise the state starts fresh. */
  function NewInstance(connection: Result<Conn.Connection, string>, character: Character.PlayerCharacter)
    : (r: Result<GameInstance, GameError>)
    ensures connection.Err? <==> r == Err(ConnectionFailed)
    ensures r.Ok? ==> r.value.connection == connection.value && r.value.state == NewState(character)
  {
    match connection
    case Err(_) => Err(ConnectionFailed)
    case Ok(c) => Ok(GameInstance(c, NewState(character)))
  }

  // ---------------------------------------------------------------------------
  // Applying updates
  // ---------------------------------------------------------------------------

  /** `process_update`: a quest definition replaces the quest, a description is narrated by the GM. */
  function ProcessUpdate(s: GameState, u: Schema.QuestUpdate): (r: GameState)
    ensures r.character == s.character
    ensures u.QuestDefinition? ==> r.quest == u.quest && r.log == s.log
    ensures u.Description? ==> r.quest == s.quest && r.log == s.log + [GameLogEntry(GM, u.text)]
  {
    match u
    case QuestDefinition(q) => s.(quest := q)
    case Description(text) => s.(log := s.log + [GameLogEntry(GM, text)])
  }

  /** How many updates of a batch are descriptions. */
  function DescriptionCount(us: seq<Schema.QuestUpdate>): nat {
    if |us| == 0 then 0 else (if us[|us| - 1].Description? then 1 else 0) + DescriptionCount(us[..|us| - 1])
  }

  /** The GM entries a batch contributes: one per description, in batch order. */
  function Narration(us: seq<Schema.QuestUpdate>): (entries: seq<GameLogEntry>)
    ensures |entries| == DescriptionCount(us) <= |us|
    ensures forall i :: 0 <= i < |entries| ==> entries[i].player == GM
  {
    DescriptionCountOfHead(us);
    if |us| == 0 then []
    else (if us[0].Description? then [GameLogEntry(GM, us[0].text)] else []) + Narration(us[1..])
  }

  /** Counting from the front gives the same number as counting from the back. */
  lemma {:induction false} DescriptionCountOfHead(us: seq<Schema.QuestUpdate>)
    ensures |us| > 0 ==> DescriptionCount(us) == (if us[0].Description? then 1 else 0) + DescriptionCount(us[1..])
  {
    if |us| > 1 {
      var init := us[..|us| - 1];
      assert init[1..] == us[1..][..|us[1..]| - 1];
      DescriptionCountOfHead(init);
    }
  }

  /** The last quest definition of a batch, looked for from the end. */
  function LastQuest(us: seq<Schema.QuestUpdate>): Option<Schema.QuestDefinition> {
    if |us| == 0 then None
    else if us[|us| - 1].QuestDefinition? then Some(us[|us| - 1].quest)
    else LastQuest(us[..|us| - 1])
  }

  /** The last definition of a batch is its tail's, unless the tail has none. */
  lemma {:induction false} LastQuestOfTail(us: seq<Schema.QuestUpdate>)
    requires |us| > 0
    ensures LastQuest(us) == if LastQuest(us[1..]).Some? then LastQuest(us[1..])
                             else if us[0].QuestDefinition? then Some(us[0].quest) else None
  {
    if |us| > 1 {
      var init := us[..|us| - 1];
      assert init[1..] == us[1..][..|us[1..]| - 1];
      LastQuestOfTail(init);
    }
  }

  /** The last definition of `a + b` is `b`'s, or `a`'s when `b` has none. */
  lemma {:induction false} LastQuestOfConcat(a: seq<Schema.QuestUpdate>, b: seq<Schema.QuestUpdate>)
    ensures LastQuest(a + b) == if LastQuest(b).Some? then LastQuest(b) else LastQuest(a)
  {
    if |b| > 0 {
      assert (a + b)[..|a + b| - 1] == a + b[..|b| - 1];
      LastQuestOfConcat(a, b[..|b| - 1]);
    } else {
      assert a + b == a;
    }
  }

  /**
   * The update loop of `handle_message`: the quest ends as the batch's last
   * definition (unchanged when there is none), the log grows by exactly the
   * batch's descriptions in order, and the character is untouched.
   */
  function ApplyUpdates(s: GameState, us: seq<Schema.QuestUpdate>): (r: GameState)
    ensures r.character == s.character
    ensures r.log == s.log + Narration(us)
    ensures r.quest == LastQuest(us).GetOr(s.quest)
    decreases |us|
  {
    if |us| == 0 then s
    else
      NarrationStep(s.log, us, ProcessUpdate(s, us[0]).log);
      QuestAfterFirst(s, us);
      ApplyUpdates(ProcessUpdate(s, us[0]), us[1..])
  }

  /** What a batch's first update narrates. */
  function NarrationOfFirst(us: seq<Schema.QuestUpdate>): seq<GameLogEntry>
    requires |us| > 0
  {
    if us[0].Description? then [GameLogEntry(GM, us[0].text)] else []
  }

  /** A log holding the first update's narration is completed by the rest of the batch's. */
  lemma NarrationStep(log: seq<GameLogEntry>, us: seq<Schema.QuestUpdate>, written: seq<GameLogEntry>)
    requires |us| > 0
    requires written == log + NarrationOfFirst(us)
    ensures written + Narration(us[1..]) == log + Narration(us)
  {
    AppendAssoc(log, NarrationOfFirst(us), Narration(us[1..]));
  }

  /** Applying a batch's first update leaves the rest of the batch to settle the quest. */
  lemma QuestAfterFirst(s: GameState, us: seq<Schema.QuestUpdate>)
    requires |us| > 0
    ensures LastQuest(us[1..]).GetOr(ProcessUpdate(s, us[0]).quest) == LastQuest(us).GetOr(s.quest)
  {
    LastQuestOfTail(us);
  }

  // ---------------------------------------------------------------------------
  // Handling one message
  // ---------------------------------------------------------------------------

  /** What handling one message did: the command sent, the resulting state, the reply to the caller. */
  datatype Turn = Turn(sent: Schema.AIInput, state: GameState, reply: Result<(), GameError>)

  /** The log once an `Input`'s own line has been written, before the backend is asked. */
  function LogBeforeTurn(s: GameState, msg: GameMessage): seq<GameLogEntry> {
    if msg.Input? then s.log + [GameLogEntry(PC, msg.content)] else s.log
  }

  /**
   * `handle_message`, with `backend` the result `Connection::send` returned
   * for the command. `Start` sends the stored character; `Input` logs the
   * player's line first and keeps it whatever the backend answers. A backend
   * error is the reply, verbatim, and no update is applied.
   */
  function HandleMessage(s: GameState, msg: GameMessage, backend: Result<Schema.AIOutput, GameError>)
    : (t: Turn)
    ensures msg.Start? ==> t.sent == Schema.Start(s.character)
    ensures msg.Input? ==> t.sent == Schema.UserInput(msg.content)
    ensures t.state.character == s.character
    ensures backend.Err? ==> t.reply == Err(backend.error)
    ensures backend.Err? ==> t.state == s.(log := LogBeforeTurn(s, msg))
    ensures backend.Ok? ==> t.reply == Ok(())
    ensures backend.Ok? ==> t.state.log == LogBeforeTurn(s, msg) + Narration(backend.value.updates)
    ensures backend.Ok? ==> t.state.quest == LastQuest(backend.value.updates).GetOr(s.quest)
  {
    match msg
    case Start =>
      Respond(Schema.Start(s.character), s, backend)
    case Input(content) =>
      Respond(Schema.UserInput(content), s.(log := s.log + [GameLogEntry(PC, content)]), backend)
  }

  /** Applies the backend's updates, or forwards its error. */
  function Respond(sent: Schema.AIInput, s: GameState, backend: Result<Schema.AIOutput, GameError>): (t: Turn)
    ensures t.sent == sent
    ensures backend.Err? ==> t.state == s && t.reply == Err(backend.error)
    ensures backend.Ok? ==> t.reply == Ok(()) && t.state.character == s.character
    ensures backend.Ok? ==> t.state.log == s.log + Narration(backend.value.updates)
    ensures backend.Ok? ==> t.state.quest == LastQuest(backend.value.updates).GetOr(s.quest)
  {
    match backend
    case Ok(output) => Turn(sent, ApplyUpdates(s, output.updates), Ok(()))
    case Err(e) => Turn(sent, s, Err(e))
  }

  /** The player's line is in the log after an `Input`, right after the old log, whatever the backend did. */
  lemma InputLineNeverRolledBack(s: GameState, content: string, backend: Result<Schema.AIOutput, GameError>)
    ensures var log := HandleMessage(s, Input(content), backend).state.log;
            |log| > |s.log| && log[..|s.log|] == s.log && log[|s.log|] == GameLogEntry(PC, content)
  {
    var log := HandleMessage(s, Input(content), backend).state.log;
    if backend.Ok? {
      assert log == s.log + [GameLogEntry(PC, content)] + Narration(backend.value.updates);
    }
  }

  // ---------------------------------------------------------------------------
  // The actor loop
  // ---------------------------------------------------------------------------

  /** One received message and the backend's result for the turn it started. */
  datatype Exchange = Exchange(message: GameMessage, backend: Result<Schema.AIOutput, GameError>)

  /** A session so far: the state, the commands sent, the replies given, in receive order. */
  datatype Session = Session(state: GameState, sent: seq<Schema.AIInput>, replies: seq<Result<(), GameError>>)

  /** What an exchange adds to the log: the player's line for an `Input`, then the narration of a successful turn. */
  function ExchangeLog(x: Exchange): seq<GameLogEntry> {
    (if x.message.Input? then [GameLogEntry(PC, x.message.content)] else [])
    + (if x.backend.Ok? then Narration(x.backend.value.updates) else [])
  }

  /** Reference definition: every exchange's log contribution, in receive order. */
  function SessionLog(xs: seq<Exchange>): seq<GameLogEntry> {
    if |xs| == 0 then [] else ExchangeLog(xs[0]) + SessionLog(xs[1..])
  }

  /** Every update the backend delivered, in receive order; failed turns deliver none. */
  function SessionUpdates(xs: seq<Exchange>): seq<Schema.QuestUpdate> {
    if |xs| == 0 then []
    else (if xs[0].backend.Ok? then xs[0].backend.value.updates else []) + SessionUpdates(xs[1..])
  }

  /**
   * `run_game`: each message handled to completion, in receive order, before
   * the next. The character never changes, the log grows by exactly the
   * exchanges' contributions, the quest is the last definition delivered, and
   * each caller gets its own turn's outcome.
   */
  function RunGame(s: GameState, xs: seq<Exchange>): (r: Session)
    ensures |r.sent| == |xs| && |r.replies| == |xs|
    ensures r.state.character == s.character
    ensures r.state.log == s.log + SessionLog(xs)
    ensures r.state.quest == LastQuest(SessionUpdates(xs)).GetOr(s.quest)
    decreases |xs|
  {
    if |xs| == 0 then Session(s, [], [])
    else
      var t := HandleMessage(s, xs[0].message, xs[0].backend);
      ExchangeLogWritten(s, xs[0]);
      SessionLogStep(s.log, xs, t.state.log);
      SessionQuestAfterFirst(s, xs);
      var rest := RunGame(t.state, xs[1..]);
      Session(rest.state, [t.sent] + rest.sent, [t.reply] + rest.replies)
  }

  /** One exchange writes exactly its own contribution to the log. */
  lemma ExchangeLogWritten(s: GameState, x: Exchange)
    ensures HandleMessage(s, x.message, x.backend).state.log == s.log + ExchangeLog(x)
  {
  }

  /** A log holding the first exchange's contribution is completed by the remaining exchanges'. */
  lemma SessionLogStep(log: seq<GameLogEntry>, xs: seq<Exchange>, written: seq<GameLogEntry>)
    requires |xs| > 0
    requires written == log + ExchangeLog(xs[0])
    ensures written + SessionLog(xs[1..]) == log + SessionLog(xs)
  {
    AppendAssoc(log, ExchangeLog(xs[0]), SessionLog(xs[1..]));
  }

  /** Handling the first message leaves the remaining exchanges to settle the quest. */
  lemma SessionQuestAfterFirst(s: GameState, xs: seq<Exchange>)
    requires |xs| > 0
    ensures LastQuest(SessionUpdates(xs[1..])).GetOr(HandleMessage(s, xs[0].message, xs[0].backend).state.quest)
            == LastQuest(SessionUpdates(xs)).GetOr(s.quest)
  {
    var batch := if xs[0].backend.Ok? then xs[0].backend.value.updates else [];
    LastQuestOfConcat(batch, SessionUpdates(xs[1..]));
  }

  /** Each caller gets its own turn's outcome: success, or the backend's error verbatim. */
  lemma {:induction false} RepliesForwarded(s: GameState, xs: seq<Exchange>)
    ensures forall i :: 0 <= i < |xs| ==>
              RunGame(s, xs).replies[i] == if xs[i].backend.Ok? then Ok(()) else Err(xs[i].backend.error)
    decreases |xs|
  {
    if |xs| > 0 {
      var t := HandleMessage(s, xs[0].message, xs[0].backend);
      RepliesForwarded(t.state, xs[1..]);
    }
  }

  /**
   * Every `Start` sends the character the session began with, every `Input`
   * sends its own text, one command per message in receive order.
   */
  lemma {:induction false} CommandsSent(s: GameState, xs: seq<Exchange>)
    ensures forall i :: 0 <= i < |xs| ==>
              RunGame(s, xs).sent[i] == if xs[i].message.Start? then Schema.Start(s.character)
                                        else Schema.UserInput(xs[i].message.content)
    decreases |xs|
  {
    if |xs| > 0 {
      var t := HandleMessage(s, xs[0].message, xs[0].backend);
      CommandsSent(t.state, xs[1..]);
    }
  }

  /** One step of the fold: the first turn, then the rest of the session from the state it left. */
  lemma RunGameStep(s: GameState, xs: seq<Exchange>, t: Turn, rest: Session)
    requires |xs| > 0
    requires t == HandleMessage(s, xs[0].message, xs[0].backend)
    requires rest == RunGame(t.state, xs[1..])
    ensures RunGame(s, xs) == Session(rest.state, [t.sent] + rest.sent, [t.reply] + rest.replies)
  {
  }

  /** Handling `a` then `b` is handling `a + b`: the fold composes in receive order. */
  lemma {:induction false} RunGameSplits(s: GameState, a: seq<Exchange>, b: seq<Exchange>)
    decreases |a|
    ensures var first := RunGame(s, a);
            var second := RunGame(first.state, b);
            RunGame(s, a + b) == Session(second.state, first.sent + second.sent, first.replies + second.replies)
  {
    if |a| == 0 {
      assert a + b == b;
    } else {
      var t := HandleMessage(s, a[0].message, a[0].backend);
      var tail := RunGame(t.state, a[1..]);
      var second := RunGame(tail.state, b);
      ConsOfConcat(a, b);
      RunGameSplits(t.state, a[1..], b);
      RunGameStep(s, a, t, tail);
      RunGameStep(s, a + b, t, RunGame(t.state, (a + b)[1..]));
      AppendAssoc([t.sent], tail.sent, second.sent);
      AppendAssoc([t.reply], tail.replies, second.replies);
    }
  }

  /** The log only ever grows: the old log is a prefix of every later one. */
  lemma LogAppendOnly(s: GameState, xs: seq<Exchange>)
    ensures |RunGame(s, xs).state.log| >= |s.log|
    ensures RunGame(s, xs).state.log[..|s.log|] == s.log
  {
  }

  /**
   * The opening of a session: a fresh state for Jim the Human Fighter, a
   * `Start`, and a reply defining "The Lost Coin" then narrating the tavern.
   */
  lemma OpeningScenario(quest: Schema.QuestDefinition)
    requires quest.title == "The Lost Coin"
    ensures var jim := Character.PlayerCharacter("Jim", "Human", "Fighter");
            var reply := Schema.AIOutput([Schema.QuestDefinition(quest), Schema.Description("You wake in a tavern...")]);
            var t := HandleMessage(NewState(jim), Start, Ok(reply));
            && t.sent == Schema.Start(jim)
            && t.state.quest.title == "The Lost Coin"
            && t.state.log == [GameLogEntry(GM, "You wake in a tavern...")]
            && t.reply == Ok(())
  {
    var us := [Schema.QuestDefinition(quest), Schema.Description("You wake in a tavern...")];
    assert LastQuest(us) == Some(quest) by {
      assert us[..1] == [Schema.QuestDefinition(quest)];
    }
    assert Narration(us) == [GameLogEntry(GM, "You wake in a tavern...")] by {
      assert us[1..][1..] == [];
    }
  }

  // ---------------------------------------------------------------------------
  // Sequence helpers (no game meaning; they keep the fold proofs small)
  // ---------------------------------------------------------------------------

  /** Concatenation is associative. */
  lemma AppendAssoc<T>(a: seq<T>, b: seq<T>, c: seq<T>)
    ensures (a + b) + c == a + (b + c)
  {
  }

  /** The head and tail of a concatenation whose left part is non-empty. */
  lemma ConsOfConcat<T>(a: seq<T>, b: seq<T>)
    requires |a| > 0
    ensures (a + b)[0] == a[0] && (a + b)[1..] == a[1..] + b
  {
  }
}

=== FILE: json.dfy ===
/**
 * The JSON data model the backend's messages are decoded from. Parsing of the
 * JSON text itself is not modelled: a document is either a parsed value or a
 * syntax error with its description.
 */
module Json {

  datatype Value =
    | Null
    | Bool(b: bool)
    | Number(n: int)
    | Str(s: string)
    | Arr(items: seq<Value>)
    /** Members in document order; a key may repeat, as JSON text allows. */
    | Obj(members: seq<(string, Value)>)

  /** The outcome of parsing a piece of JSON text. */
  datatype Document = WellFormed(value: Value) | SyntaxError(detail: string)
}

=== FILE: schema.dfy ===
/**
 * The data exchanged with the backend (src/schema.rs) and the serde contract
 * that decodes it: structs and enums declared with `deny_unknown_fields`
 * refuse any key outside their declared fields instead of dropping it.
 */
module Schema {
  import opened Wrappers
  import opened Json
  import Character

  /** The current quest; the derived `Default` is all-empty. */
  datatype QuestDefinition = Quest(title: string, description: string, objectiveSummary: string)

  /** One instruction of the backend: replace the quest or narrate a line. */
  datatype QuestUpdate = QuestDefinition(quest: QuestDefinition) | Description(text: string)

  /** The backend's reply to one turn: updates to apply in order. */
  datatype AIOutput = AIOutput(updates: seq<QuestUpdate>)

  /** A command sent to the backend. */
  datatype AIInput = Start(character: Character.PlayerCharacter) | UserInput(text: string)

  /** `QuestDefinition::default()`. */
  function DefaultQuest(): (q: QuestDefinition)
    ensures q.title == [] && q.description == [] && q.objectiveSummary == []
  {
    Quest("", "", "")
  }

  /** The ways serde rejects a value; only the kind and the offending name are kept. */
  datatype DecodeError =
    | InvalidType(expected: string)
    | UnknownField(field: string)
    | DuplicateField(field: string)
    | MissingField(field: string)
    | InvalidLength(length: nat)
    | TrailingElements
    | UnknownVariant(variant: string)
    | ExpectedSingleKey

  /** The text serde's error displays, without its list of expected names and its position. */
  function ErrorMessage(e: DecodeError): string {
    match e
    case InvalidType(expected) => "invalid type, expected " + expected
    case UnknownField(f) => "unknown field `" + f + "`"
    case DuplicateField(f) => "duplicate field `" + f + "`"
    case MissingField(f) => "missing field `" + f + "`"
    case InvalidLength(n) => "invalid length"
    case TrailingElements => "trailing characters"
    case UnknownVariant(v) => "unknown variant `" + v + "`"
    case ExpectedSingleKey => "expected value"
  }

  const QuestFields: seq<string> := ["title", "description", "objective_summary"]
  const OutputFields: seq<string> := ["updates"]
  const CharacterFields: seq<string> := ["name", "race", "class"]

  // ---------------------------------------------------------------------------
  // Decoding
  // ---------------------------------------------------------------------------

  function DecodeString(v: Value): (r: Result<string, DecodeError>)
    ensures r.Ok? <==> v.Str?
    ensures r.Ok? ==> r.value == v.s
  {
    if v.Str? then Ok(v.s) else Err(InvalidType("a string"))
  }

  /** The first declared field, in declaration order, that `found` lacks. */
  function FirstMissing<T>(declared: seq<string>, found: map<string, T>): (r: Option<string>)
    ensures r.None? <==> forall i :: 0 <= i < |declared| ==> declared[i] in found
    ensures r.Some? ==> r.value in declared && r.value !in found
  {
    if |declared| == 0 then None
    else if declared[0] !in found then Some(declared[0])
    else FirstMissing(declared[1..], found)
  }

  /** No name is declared twice, as the fields of a Rust struct never are. */
  predicate Distinct(names: seq<string>) {
    forall i, j :: 0 <= i < j < |names| ==> names[i] != names[j]
  }

  /** No declared field is named by two members of the object. */
  predicate NoRepeatedField(members: seq<(string, Value)>, declared: seq<string>) {
    forall i, j :: 0 <= i < j < |members| && members[i].0 in declared ==> members[i].0 != members[j].0
  }

  /** Some member of the object, in document order, is named `k` and holds a value that decodes to `x`. */
  ghost predicate MemberGives<T>(members: seq<(string, Value)>, k: string, field: Value -> Result<T, DecodeError>, x: T) {
    exists i :: 0 <= i < |members| && members[i].0 == k && field(members[i].1) == Ok(x)
  }

  /** A member found after the first one is found in the whole object. */
  lemma MemberGivesTail<T>(members: seq<(string, Value)>, k: string, field: Value -> Result<T, DecodeError>, x: T)
    requires |members| > 0 && MemberGives(members[1..], k, field, x)
    ensures MemberGives(members, k, field, x)
  {
    var i :| 0 <= i < |members[1..]| && members[1..][i].0 == k && field(members[1..][i].1) == Ok(x);
    assert members[i + 1] == members[1..][i];
  }

  /** Skipping the first member keeps every decoded field traceable to a member. */
  lemma SkippedMemberLift<T>(members: seq<(string, Value)>, field: Value -> Result<T, DecodeError>,
                             found: map<string, T>, rest: Result<map<string, T>, DecodeError>)
    requires |members| > 0
    requires rest.Ok? ==> forall k :: k in rest.value ==>
               (k in found && rest.value[k] == found[k]) || MemberGives(members[1..], k, field, rest.value[k])
    ensures rest.Ok? ==> forall k :: k in rest.value ==>
              (k in found && rest.value[k] == found[k]) || MemberGives(members, k, field, rest.value[k])
  {
    if rest.Ok? {
      forall k | k in rest.value && !(k in found && rest.value[k] == found[k])
        ensures MemberGives(members, k, field, rest.value[k])
      {
        MemberGivesTail(members, k, field, rest.value[k]);
      }
    }
  }

  /** Recording the first member's value keeps every decoded field traceable to a member. */
  lemma RecordedMemberLift<T>(members: seq<(string, Value)>, field: Value -> Result<T, DecodeError>,
                              found: map<string, T>, x: T, rest: Result<map<string, T>, DecodeError>)
    requires |members| > 0 && field(members[0].1) == Ok(x)
    requires rest.Ok? ==> forall k :: k in rest.value ==>
               (k in found[members[0].0 := x] && rest.value[k] == found[members[0].0 := x][k])
               || MemberGives(members[1..], k, field, rest.value[k])
    ensures rest.Ok? ==> forall k :: k in rest.value ==>
              (k in found && rest.value[k] == found[k]) || MemberGives(members, k, field, rest.value[k])
  {
    if rest.Ok? {
      forall k | k in rest.value && !(k in found && rest.value[k] == found[k])
        ensures MemberGives(members, k, field, rest.value[k])
      {
        if k == members[0].0 && !MemberGives(members[1..], k, field, rest.value[k]) {
          assert members[0].0 == k && field(members[0].1) == Ok(rest.value[k]);
        } else {
          MemberGivesTail(members, k, field, rest.value[k]);
        }
      }
    }
  }

  /** A field decoded as a string was a string member of the object. */
  lemma StringMembers(members: seq<(string, Value)>, m: map<string, string>)
    requires forall k :: k in m ==> MemberGives(members, k, DecodeString, m[k])
    ensures forall k :: k in m ==> (k, Str(m[k])) in members
  {
    forall k | k in m
      ensures (k, Str(m[k])) in members
    {
      var i :| 0 <= i < |members| && members[i].0 == k && DecodeString(members[i].1) == Ok(m[k]);
      assert members[i] == (k, Str(m[k]));
    }
  }

  /**
   * A struct read from a JSON object, the way `#[derive(Deserialize)]` reads
   * it: members in document order, a repeated field or (when `strict`) an
   * undeclared key is an error at its first occurrence, an undeclared key is
   * otherwise skipped, and once the object ends the first missing field in
   * declaration order is an error.
   */
  function DecodeFields<T>(members: seq<(string, Value)>, declared: seq<string>, strict: bool,
                           field: Value -> Result<T, DecodeError>, found: map<string, T>)
    : (r: Result<map<string, T>, DecodeError>)
    requires forall k :: k in found ==> k in declared
    ensures r.Ok? ==> forall i :: 0 <= i < |declared| ==> declared[i] in r.value
    ensures r.Ok? ==> forall k :: k in r.value ==> k in declared
    ensures r.Ok? && strict ==> forall i :: 0 <= i < |members| ==> members[i].0 in declared
    ensures r.Ok? ==> forall k :: k in r.value ==>
              (k in found && r.value[k] == found[k]) || MemberGives(members, k, field, r.value[k])
    ensures r.Ok? ==> forall i :: 0 <= i < |members| && members[i].0 in declared ==> members[i].0 !in found
    ensures r.Ok? ==> NoRepeatedField(members, declared)
    decreases |members|
  {
    if |members| == 0 then
      match FirstMissing(declared, found)
      case Some(f) => Err(MissingField(f))
      case None => Ok(found)
    else
      var key := members[0].0;
      if key !in declared then
        if strict then Err(UnknownField(key))
        else
          var rest := DecodeFields(members[1..], declared, strict, field, found);
          SkippedMemberLift(members, field, found, rest);
          rest
      else if key in found then Err(DuplicateField(key))
      else
        match field(members[0].1)
        case Err(e) => Err(e)
        case Ok(x) =>
          var rest := DecodeFields(members[1..], declared, strict, field, found[key := x]);
          RecordedMemberLift(members, field, found, x, rest);
          rest
  }

  /** The object decoder at a declared, not yet seen member whose value decodes. */
  lemma FieldsRecord<T>(members: seq<(string, Value)>, declared: seq<string>, strict: bool,
                        field: Value -> Result<T, DecodeError>, found: map<string, T>, x: T,
                        rest: Result<map<string, T>, DecodeError>)
    requires forall k :: k in found ==> k in declared
    requires |members| > 0 && members[0].0 in declared && members[0].0 !in found
    requires field(members[0].1) == Ok(x)
    requires DecodeFields(members[1..], declared, strict, field, found[members[0].0 := x]) == rest
    ensures DecodeFields(members, declared, strict, field, found) == rest
  {
  }

  /** The lenient object decoder at an undeclared member. */
  lemma FieldsSkip<T>(members: seq<(string, Value)>, declared: seq<string>,
                      field: Value -> Result<T, DecodeError>, found: map<string, T>,
                      rest: Result<map<string, T>, DecodeError>)
    requires forall k :: k in found ==> k in declared
    requires |members| > 0 && members[0].0 !in declared
    requires DecodeFields(members[1..], declared, false, field, found) == rest
    ensures DecodeFields(members, declared, false, field, found) == rest
  {
  }

  /** The object decoder at the end of the object, with every declared field found. */
  lemma FieldsEnd<T>(declared: seq<string>, strict: bool, field: Value -> Result<T, DecodeError>, found: map<string, T>)
    requires forall k :: k in found ==> k in declared
    requires forall i :: 0 <= i < |declared| ==> declared[i] in found
    ensures DecodeFields([], declared, strict, field, found) == Ok(found)
  {
  }

  /**
   * A struct read from a JSON array, which serde also accepts: one element per
   * declared field, in declaration order, and nothing after them.
   */
  function DecodeElements<T>(items: seq<Value>, declared: seq<string>,
                             field: Value -> Result<T, DecodeError>, found: map<string, T>, i: nat)
    : (r: Result<map<string, T>, DecodeError>)
    requires Distinct(declared)
    requires i <= |declared| && i <= |items|
    requires forall j :: 0 <= j < i ==> declared[j] in found && field(items[j]) == Ok(found[declared[j]])
    requires forall k :: k in found ==> k in declared
    ensures r.Ok? ==> |items| == |declared|
    ensures r.Ok? ==> forall j :: 0 <= j < |declared| ==> declared[j] in r.value
    ensures r.Ok? ==> forall k :: k in r.value ==> k in declared
    ensures r.Ok? ==> forall j :: 0 <= j < |declared| ==> field(items[j]) == Ok(r.value[declared[j]])
    decreases |declared| - i
  {
    if i == |declared| then
      if |items| > |declared| then Err(TrailingElements) else Ok(found)
    else if i >= |items| then Err(InvalidLength(i))
    else
      match field(items[i])
      case Err(e) => Err(e)
      case Ok(x) => DecodeElements(items, declared, field, found[declared[i] := x], i + 1)
  }

  /** A struct with the given fields, from an object or an array. */
  function DecodeStruct<T>(v: Value, declared: seq<string>, strict: bool, field: Value -> Result<T, DecodeError>)
    : (r: Result<map<string, T>, DecodeError>)
    requires Distinct(declared)
    ensures r.Ok? ==> forall j :: 0 <= j < |declared| ==> declared[j] in r.value
    ensures r.Ok? ==> v.Obj? || v.Arr?
    ensures r.Ok? && v.Obj? && strict ==> forall i :: 0 <= i < |v.members| ==> v.members[i].0 in declared
    ensures r.Ok? && v.Obj? ==> forall k :: k in r.value ==> MemberGives(v.members, k, field, r.value[k])
    ensures r.Ok? && v.Obj? ==> NoRepeatedField(v.members, declared)
    ensures r.Ok? && v.Arr? ==>
              |v.items| == |declared| && forall j :: 0 <= j < |declared| ==> field(v.items[j]) == Ok(r.value[declared[j]])
  {
    match v
    case Obj(members) => DecodeFields(members, declared, strict, field, map[])
    case Arr(items) => DecodeElements(items, declared, field, map[], 0)
    case _ => Err(InvalidType("a struct"))
  }

  /**
   * A quest's fields are the strings under `title`, `description` and
   * `objective_summary`, wherever those keys stand in the object, or the
   * three elements of an array in declaration order.
   */
  function DecodeQuestDefinition(v: Value): (r: Result<QuestDefinition, DecodeError>)
    ensures r.Ok? ==> v.Obj? || v.Arr?
    ensures r.Ok? && v.Obj? ==> forall i :: 0 <= i < |v.members| ==> v.members[i].0 in QuestFields
    ensures r.Ok? && v.Obj? ==> NoRepeatedField(v.members, QuestFields)
    ensures r.Ok? && v.Obj? ==>
              && ("title", Str(r.value.title)) in v.members
              && ("description", Str(r.value.description)) in v.members
              && ("objective_summary", Str(r.value.objectiveSummary)) in v.members
    ensures r.Ok? && v.Arr? ==>
              v.items == [Str(r.value.title), Str(r.value.description), Str(r.value.objectiveSummary)]
  {
    var m :- DecodeStruct(v, QuestFields, true, DecodeString);
    assert QuestFields[0] in m && QuestFields[1] in m && QuestFields[2] in m;
    if v.Obj? then
      StringMembers(v.members, m);
      Ok(Quest(m["title"], m["description"], m["objective_summary"]))
    else
      assert DecodeString(v.items[0]) == Ok(m[QuestFields[0]]);
      assert DecodeString(v.items[1]) == Ok(m[QuestFields[1]]);
      assert DecodeString(v.items[2]) == Ok(m[QuestFields[2]]);
      Ok(Quest(m["title"], m["description"], m["objective_summary"]))
  }

  /**
   * An externally tagged enum value: an object whose single key names the
   * variant and whose value is its payload. The payload is read before any
   * second key is noticed.
   */
  function DecodeQuestUpdate(v: Value): (r: Result<QuestUpdate, DecodeError>)
    ensures r.Ok? ==> v.Obj? && |v.members| == 1
    ensures r.Ok? && r.value.QuestDefinition? ==>
              v.members[0].0 == "QuestDefinition" && DecodeQuestDefinition(v.members[0].1) == Ok(r.value.quest)
    ensures r.Ok? && r.value.Description? ==>
              v.members[0] == ("Description", Str(r.value.text))
    ensures (v.Obj? && |v.members| == 1 && v.members[0].0 == "QuestDefinition"
             && DecodeQuestDefinition(v.members[0].1).Ok?) ==> r.Ok?
    ensures v.Obj? && |v.members| == 1 && v.members[0].0 == "Description" && v.members[0].1.Str? ==> r.Ok?
  {
    match v
    case Str(tag) =>
      if tag == "QuestDefinition" || tag == "Description" then Err(InvalidType("a newtype variant"))
      else Err(UnknownVariant(tag))
    case Obj(members) =>
      if |members| == 0 then Err(ExpectedSingleKey)
      else
        var update :- match members[0].0
          case "QuestDefinition" =>
            (var q :- DecodeQuestDefinition(members[0].1); Ok(QuestDefinition(q)))
          case "Description" =>
            (var s :- DecodeString(members[0].1); Ok(Description(s)))
          case other => Err(UnknownVariant(other));
        if |members| > 1 then Err(ExpectedSingleKey) else Ok(update)
    case _ => Err(InvalidType("an enum"))
  }

  /** A JSON array of updates, element by element, keeping their order. */
  function DecodeUpdateList(items: seq<Value>): (r: Result<seq<QuestUpdate>, DecodeError>)
    ensures r.Ok? ==> |r.value| == |items|
    ensures r.Ok? ==> forall i :: 0 <= i < |items| ==> DecodeQuestUpdate(items[i]) == Ok(r.value[i])
    ensures r.Ok? <==> forall i :: 0 <= i < |items| ==> DecodeQuestUpdate(items[i]).Ok?
  {
    if |items| == 0 then Ok([])
    else
      var first :- DecodeQuestUpdate(items[0]);
      var rest :- DecodeUpdateList(items[1..]);
      Ok([first] + rest)
  }

  function DecodeUpdates(v: Value): (r: Result<seq<QuestUpdate>, DecodeError>)
    ensures r.Ok? ==> v.Arr? && DecodeUpdateList(v.items) == r
  {
    if v.Arr? then DecodeUpdateList(v.items) else Err(InvalidType("a sequence"))
  }

  function DecodeOutput(v: Value): (r: Result<AIOutput, DecodeError>)
    ensures r.Ok? ==> v.Obj? || v.Arr?
    ensures r.Ok? && v.Obj? ==> forall i :: 0 <= i < |v.members| ==> v.members[i].0 in OutputFields
    ensures r.Ok? && v.Obj? ==> MemberGives(v.members, "updates", DecodeUpdates, r.value.updates)
    ensures r.Ok? && v.Obj? ==> NoRepeatedField(v.members, OutputFields)
    ensures r.Ok? && v.Arr? ==> |v.items| == 1 && DecodeUpdates(v.items[0]) == Ok(r.value.updates)
  {
    var m :- DecodeStruct(v, OutputFields, true, DecodeUpdates);
    assert OutputFields[0] in m;
    Ok(AIOutput(m["updates"]))
  }

  /** `PlayerCharacter` is declared without `deny_unknown_fields`: extra keys are skipped. */
  function DecodeCharacter(v: Value): (r: Result<Character.PlayerCharacter, DecodeError>)
    ensures r.Ok? ==> v.Obj? || v.Arr?
    ensures r.Ok? && v.Obj? ==> NoRepeatedField(v.members, CharacterFields)
    ensures r.Ok? && v.Obj? ==>
              && ("name", Str(r.value.name)) in v.members
              && ("race", Str(r.value.race)) in v.members
              && ("class", Str(r.value.characterClass)) in v.members
    ensures r.Ok? && v.Arr? ==> v.items == [Str(r.value.name), Str(r.value.race), Str(r.value.characterClass)]
  {
    var m :- DecodeStruct(v, CharacterFields, false, DecodeString);
    assert CharacterFields[0] in m && CharacterFields[1] in m && CharacterFields[2] in m;
    if v.Obj? then
      StringMembers(v.members, m);
      Ok(Character.PlayerCharacter(m["name"], m["race"], m["class"]))
    else
      assert DecodeString(v.items[0]) == Ok(m[CharacterFields[0]]);
      assert DecodeString(v.items[1]) == Ok(m[CharacterFields[1]]);
      assert DecodeString(v.items[2]) == Ok(m[CharacterFields[2]]);
      Ok(Character.PlayerCharacter(m["name"], m["race"], m["class"]))
  }

  function DecodeInput(v: Value): (r: Result<AIInput, DecodeError>)
    ensures r.Ok? ==> v.Obj? && |v.members| == 1
    ensures r.Ok? && r.value.Start? ==>
              v.members[0].0 == "Start" && DecodeCharacter(v.members[0].1) == Ok(r.value.character)
    ensures r.Ok? && r.value.UserInput? ==> v.members[0] == ("UserInput", Str(r.value.text))
  {
    match v
    case Str(tag) =>
      if tag == "Start" || tag == "UserInput" then Err(InvalidType("a newtype variant"))
      else Err(UnknownVariant(tag))
    case Obj(members) =>
      if |members| == 0 then Err(ExpectedSingleKey)
      else
        var input :- match members[0].0
          case "Start" =>
            (var pc :- DecodeCharacter(members[0].1); Ok(Start(pc)))
          case "UserInput" =>
            (var s :- DecodeString(members[0].1); Ok(UserInput(s)))
          case other => Err(UnknownVariant(other));
        if |members| > 1 then Err(ExpectedSingleKey) else Ok(input)
    case _ => Err(InvalidType("an enum"))
  }

  // ---------------------------------------------------------------------------
  // Encoding (serde's canonical form)
  // ---------------------------------------------------------------------------

  /** An object with the declared fields in declaration order, each a string. */
  function EncodeQuestDefinition(q: QuestDefinition): (v: Value)
    ensures v.Obj? && |v.members| == |QuestFields|
    ensures forall i :: 0 <= i < |QuestFields| ==> v.members[i].0 == QuestFields[i] && v.members[i].1.Str?
  {
    Obj([("title", Str(q.title)), ("description", Str(q.description)),
         ("objective_summary", Str(q.objectiveSummary))])
  }

  /** Externally tagged: a single-key object naming the variant. */
  function EncodeQuestUpdate(u: QuestUpdate): (v: Value)
    ensures v.Obj? && |v.members| == 1
    ensures u.QuestDefinition? ==> v.members[0] == ("QuestDefinition", EncodeQuestDefinition(u.quest))
    ensures u.Description? ==> v.members[0] == ("Description", Str(u.text))
  {
    match u
    case QuestDefinition(q) => Obj([("QuestDefinition", EncodeQuestDefinition(q))])
    case Description(s) => Obj([("Description", Str(s))])
  }

  function EncodeUpdateList(us: seq<QuestUpdate>): (items: seq<Value>)
    ensures |items| == |us|
    ensures forall i :: 0 <= i < |us| ==> items[i] == EncodeQuestUpdate(us[i])
  {
    if |us| == 0 then [] else [EncodeQuestUpdate(us[0])] + EncodeUpdateList(us[1..])
  }

  /** A single `updates` member holding one array element per update. */
  function EncodeOutput(o: AIOutput): (v: Value)
    ensures v.Obj? && |v.members| == 1 && v.members[0].0 == "updates"
    ensures v.members[0].1.Arr? && |v.members[0].1.items| == |o.updates|
  {
    Obj([("updates", Arr(EncodeUpdateList(o.updates)))])
  }

  /** An object with the declared fields in declaration order, each a string. */
  function EncodeCharacter(pc: Character.PlayerCharacter): (v: Value)
    ensures v.Obj? && |v.members| == |CharacterFields|
    ensures forall i :: 0 <= i < |CharacterFields| ==> v.members[i].0 == CharacterFields[i] && v.members[i].1.Str?
  {
    Obj([("name", Str(pc.name)), ("race", Str(pc.race)), ("class", Str(pc.characterClass))])
  }

  /** The command as posted to the thread: a single-key object tagged with the variant. */
  function EncodeInput(c: AIInput): (v: Value)
    ensures v.Obj? && |v.members| == 1
    ensures c.Start? ==> v.members[0] == ("Start", EncodeCharacter(c.character))
    ensures c.UserInput? ==> v.members[0] == ("UserInput", Str(c.text))
  {
    match c
    case Start(pc) => Obj([("Start", EncodeCharacter(pc))])
    case UserInput(s) => Obj([("UserInput", Str(s))])
  }

  // ---------------------------------------------------------------------------
  // Properties of the contract
  // ---------------------------------------------------------------------------

  lemma QuestDefinitionRoundTrip(q: QuestDefinition)
    ensures DecodeQuestDefinition(EncodeQuestDefinition(q)) == Ok(q)
  {
    var ms := EncodeQuestDefinition(q).members;
    var m1 := map["title" := q.title];
    var m2 := m1["description" := q.description];
    var m3 := m2["objective_summary" := q.objectiveSummary];
    FieldsEnd(QuestFields, true, DecodeString, m3);
    assert ms[3..] == [];
    FieldsRecord(ms[2..], QuestFields, true, DecodeString, m2, q.objectiveSummary, Ok(m3));
    FieldsRecord(ms[1..], QuestFields, true, DecodeString, m1, q.description, Ok(m3));
    FieldsRecord(ms, QuestFields, true, DecodeString, map[], q.title, Ok(m3));
  }

  lemma QuestUpdateRoundTrip(u: QuestUpdate)
    ensures DecodeQuestUpdate(EncodeQuestUpdate(u)) == Ok(u)
  {
    if u.QuestDefinition? {
      QuestDefinitionRoundTrip(u.quest);
    }
  }

  /** The list decoder at its first element. */
  lemma DecodeUpdateListCons(items: seq<Value>, u: QuestUpdate, rest: seq<QuestUpdate>)
    requires |items| > 0 && DecodeQuestUpdate(items[0]) == Ok(u) && DecodeUpdateList(items[1..]) == Ok(rest)
    ensures DecodeUpdateList(items) == Ok([u] + rest)
  {
  }

  lemma {:induction false} UpdateListRoundTrip(us: seq<QuestUpdate>)
    ensures DecodeUpdateList(EncodeUpdateList(us)) == Ok(us)
  {
    if |us| > 0 {
      var items := EncodeUpdateList(us);
      assert items[0] == EncodeQuestUpdate(us[0]) && items[1..] == EncodeUpdateList(us[1..]);
      QuestUpdateRoundTrip(us[0]);
      UpdateListRoundTrip(us[1..]);
      DecodeUpdateListCons(items, us[0], us[1..]);
      assert [us[0]] + us[1..] == us;
    }
  }

  /** Encoding a reply and decoding it again gives back the same updates, in the same order. */
  lemma OutputRoundTrip(o: AIOutput)
    ensures DecodeOutput(EncodeOutput(o)) == Ok(o)
  {
    UpdateListRoundTrip(o.updates);
    var ms := EncodeOutput(o).members;
    var m1 := map["updates" := o.updates];
    assert DecodeFields(ms[1..], OutputFields, true, DecodeUpdates, m1) == Ok(m1);
    assert DecodeFields(ms, OutputFields, true, DecodeUpdates, map[]) == Ok(m1);
  }

  lemma CharacterRoundTrip(pc: Character.PlayerCharacter)
    ensures DecodeCharacter(EncodeCharacter(pc)) == Ok(pc)
  {
    var ms := EncodeCharacter(pc).members;
    var m1 := map["name" := pc.name];
    var m2 := m1["race" := pc.race];
    var m3 := m2["class" := pc.characterClass];
    FieldsEnd(CharacterFields, false, DecodeString, m3);
    assert ms[3..] == [];
    FieldsRecord(ms[2..], CharacterFields, false, DecodeString, m2, pc.characterClass, Ok(m3));
    FieldsRecord(ms[1..], CharacterFields, false, DecodeString, m1, pc.race, Ok(m3));
    FieldsRecord(ms, CharacterFields, false, DecodeString, map[], pc.name, Ok(m3));
  }

  lemma InputRoundTrip(c: AIInput)
    ensures DecodeInput(EncodeInput(c)) == Ok(c)
  {
    if c.Start? {
      CharacterRoundTrip(c.character);
    }
  }

  /** A quest object carrying any key besides its three fields is refused, not trimmed. */
  lemma QuestDefinitionRejectsUnknownKey(members: seq<(string, Value)>, i: nat)
    requires i < |members| && members[i].0 !in QuestFields
    ensures DecodeQuestDefinition(Obj(members)).Err?
  {
  }

  /**
   * The object decoder accepts any order: when every member names a declared
   * field not yet found, once, with a value that decodes, and together with
   * `found` they cover every declared field, decoding succeeds.
   */
  lemma {:induction false} DecodeFieldsAccepts<T>(members: seq<(string, Value)>, declared: seq<string>, strict: bool,
                                                  field: Value -> Result<T, DecodeError>, found: map<string, T>)
    requires forall k :: k in found ==> k in declared
    requires forall i :: 0 <= i < |members| ==>
               members[i].0 in declared && members[i].0 !in found && field(members[i].1).Ok?
    requires forall i, j :: 0 <= i < j < |members| ==> members[i].0 != members[j].0
    requires forall d :: d in declared ==> d in found || exists i :: 0 <= i < |members| && members[i].0 == d
    ensures DecodeFields(members, declared, strict, field, found).Ok?
    decreases |members|
  {
    if |members| == 0 {
      FieldsEnd(declared, strict, field, found);
    } else {
      var key := members[0].0;
      var x := field(members[0].1).value;
      var found' := found[key := x];
      forall i | 0 <= i < |members[1..]|
        ensures members[1..][i].0 in declared && members[1..][i].0 !in found' && field(members[1..][i].1).Ok?
      {
        assert members[1..][i] == members[i + 1];
      }
      forall i, j | 0 <= i < j < |members[1..]|
        ensures members[1..][i].0 != members[1..][j].0
      {
        assert members[1..][i] == members[i + 1] && members[1..][j] == members[j + 1];
      }
      forall d | d in declared
        ensures d in found' || exists i :: 0 <= i < |members[1..]| && members[1..][i].0 == d
      {
        if d !in found' {
          var i :| 0 <= i < |members| && members[i].0 == d;
          assert members[1..][i - 1] == members[i];
        }
      }
      DecodeFieldsAccepts(members[1..], declared, strict, field, found');
      FieldsRecord(members, declared, strict, field, found, x,
                   DecodeFields(members[1..], declared, strict, field, found'));
    }
  }

  /**
   * Key order does not matter: an object naming each of the quest's three
   * fields exactly once, with string values, decodes in any order, each field
   * taken from the member of its name.
   */
  lemma QuestDefinitionAnyOrder(members: seq<(string, Value)>)
    requires forall i :: 0 <= i < |members| ==> members[i].0 in QuestFields && members[i].1.Str?
    requires forall i, j :: 0 <= i < j < |members| ==> members[i].0 != members[j].0
    requires forall f :: f in QuestFields ==> exists i :: 0 <= i < |members| && members[i].0 == f
    ensures DecodeQuestDefinition(Obj(members)).Ok?
    ensures var q := DecodeQuestDefinition(Obj(members)).value;
            && ("title", Str(q.title)) in members
            && ("description", Str(q.description)) in members
            && ("objective_summary", Str(q.objectiveSummary)) in members
  {
    DecodeFieldsAccepts(members, QuestFields, true, DecodeString, map[]);
  }

  /** A quest object naming a field twice is refused, even when both values are strings. */
  lemma QuestDefinitionRejectsRepeatedKey(members: seq<(string, Value)>, i: nat, j: nat)
    requires i < j < |members| && members[i].0 == members[j].0 && members[i].0 in QuestFields
    ensures DecodeQuestDefinition(Obj(members)).Err?
  {
  }

  /** A reply object carrying any key besides `updates` is refused. */
  lemma OutputRejectsUnknownKey(members: seq<(string, Value)>, i: nat)
    requires i < |members| && members[i].0 !in OutputFields
    ensures DecodeOutput(Obj(members)).Err?
  {
  }

  /**
   * A reply decodes whenever every element of its `updates` array is a valid
   * update, whatever key order the quests inside use.
   */
  lemma OutputAccepts(items: seq<Value>)
    requires forall i :: 0 <= i < |items| ==> DecodeQuestUpdate(items[i]).Ok?
    ensures DecodeOutput(Obj([("updates", Arr(items))])).Ok?
  {
    var ms := [("updates", Arr(items))];
    var us := DecodeUpdates(Arr(items)).value;
    var m1 := map["updates" := us];
    FieldsEnd(OutputFields, true, DecodeUpdates, m1);
    assert ms[1..] == [];
    FieldsRecord(ms, OutputFields, true, DecodeUpdates, map[], us, Ok(m1));
  }

  /** A quest update carrying a quest in any valid key order decodes to that quest. */
  lemma QuestUpdateAnyOrder(members: seq<(string, Value)>)
    requires forall i :: 0 <= i < |members| ==> members[i].0 in QuestFields && members[i].1.Str?
    requires forall i, j :: 0 <= i < j < |members| ==> members[i].0 != members[j].0
    requires forall f :: f in QuestFields ==> exists i :: 0 <= i < |members| && members[i].0 == f
    ensures DecodeQuestDefinition(Obj(members)).Ok?
    ensures DecodeQuestUpdate(Obj([("QuestDefinition", Obj(members))]))
            == Ok(QuestDefinition(DecodeQuestDefinition(Obj(members)).value))
  {
    QuestDefinitionAnyOrder(members);
  }

  /** One malformed update, anywhere in the list, makes the whole reply fail. */
  lemma OutputRejectsBadUpdate(items: seq<Value>, i: nat)
    requires i < |items| && DecodeQuestUpdate(items[i]).Err?
    ensures DecodeOutput(Obj([("updates", Arr(items))])).Err?
  {
  }

  /** A decoded reply lists its updates in the order the array held them. */
  lemma OutputKeepsOrder(items: seq<Value>)
    requires DecodeOutput(Obj([("updates", Arr(items))])).Ok?
    ensures var o := DecodeOutput(Obj([("updates", Arr(items))])).value;
            |o.updates| == |items| &&
            forall i :: 0 <= i < |items| ==> DecodeQuestUpdate(items[i]) == Ok(o.updates[i])
  {
    var ms := [("updates", Arr(items))];
    var us := DecodeUpdates(Arr(items));
    if us.Ok? {
      var m1 := map["updates" := us.value];
      assert DecodeFields(ms[1..], OutputFields, true, DecodeUpdates, m1) == Ok(m1);
    }
  }

  /** `QuestUpdate` is closed: a decoded update was tagged with one of its two variant names. */
  lemma QuestUpdateVariantsClosed(tag: string, payload: Value)
    requires DecodeQuestUpdate(Obj([(tag, payload)])).Ok?
    ensures tag == "QuestDefinition" || tag == "Description"
  {
  }

  /** `AIInput` is closed: a decoded command was tagged `Start` or `UserInput`. */
  lemma InputVariantsClosed(tag: string, payload: Value)
    requires DecodeInput(Obj([(tag, payload)])).Ok?
    ensures tag == "Start" || tag == "UserInput"
  {
  }

  /**
   * The character inside a `Start` command is the one place the strictness
   * does not reach: `PlayerCharacter` lacks `deny_unknown_fields`, so an extra
   * key there is skipped and the command still decodes.
   */
  lemma StartCharacterToleratesUnknownKey(pc: Character.PlayerCharacter, key: string, v: Value)
    requires key !in CharacterFields
    ensures DecodeInput(Obj([("Start", Obj(EncodeCharacter(pc).members + [(key, v)]))])) == Ok(Start(pc))
  {
    var ms := EncodeCharacter(pc).members + [(key, v)];
    var m1 := map["name" := pc.name];
    var m2 := m1["race" := pc.race];
    var m3 := m2["class" := pc.characterClass];
    FieldsEnd(CharacterFields, false, DecodeString, m3);
    assert ms[4..] == [];
    FieldsSkip(ms[3..], CharacterFields, DecodeString, m3, Ok(m3));
    FieldsRecord(ms[2..], CharacterFields, false, DecodeString, m2, pc.characterClass, Ok(m3));
    FieldsRecord(ms[1..], CharacterFields, false, DecodeString, m1, pc.race, Ok(m3));
    FieldsRecord(ms, CharacterFields, false, DecodeString, map[], pc.name, Ok(m3));
    assert DecodeCharacter(Obj(ms)) == Ok(pc);
  }
}

=== FILE: text.dfy ===
/**
 * Whitespace trimming as Rust's `str::trim` performs it: leading and trailing
 * characters with the Unicode `White_Space` property are removed, nothing else.
 */
module Text {

  /** Unicode `White_Space`, the set `char::is_whitespace` accepts, as inclusive ranges. */
  const WhitespaceRanges: seq<(char, char)> := [
    ('\t', '\r'), (' ', ' '), ('\U{0085}', '\U{0085}'), ('\U{00A0}', '\U{00A0}'),
    ('\U{1680}', '\U{1680}'), ('\U{2000}', '\U{200A}'), ('\U{2028}', '\U{2029}'),
    ('\U{202F}', '\U{202F}'), ('\U{205F}', '\U{205F}'), ('\U{3000}', '\U{3000}')
  ]

  predicate InRanges(c: char, ranges: seq<(char, char)>) {
    |ranges| > 0 && (ranges[0].0 <= c <= ranges[0].1 || InRanges(c, ranges[1..]))
  }

  predicate IsWhitespace(c: char) {
    InRanges(c, WhitespaceRanges)
  }

  /** A character outside every range is in none of them. */
  lemma {:induction false} OutsideRanges(c: char, ranges: seq<(char, char)>)
    requires forall k :: 0 <= k < |ranges| ==> c < ranges[k].0 || ranges[k].1 < c
    ensures !InRanges(c, ranges)
  {
    if |ranges| > 0 {
      assert forall k :: 0 <= k < |ranges[1..]| ==> ranges[1..][k] == ranges[k + 1];
      OutsideRanges(c, ranges[1..]);
    }
  }

  /** ASCII letters are not whitespace. */
  lemma LetterIsNotWhitespace(c: char)
    requires 'A' <= c <= 'Z' || 'a' <= c <= 'z'
    ensures !IsWhitespace(c)
  {
    OutsideRanges(c, WhitespaceRanges);
  }

  predicate AllWhitespace(s: string) {
    forall i :: 0 <= i < |s| ==> IsWhitespace(s[i])
  }

  /** Neither the first nor the last character of `s` is whitespace. */
  predicate Trimmed(s: string) {
    s == [] || (!IsWhitespace(s[0]) && !IsWhitespace(s[|s| - 1]))
  }

  /** `s` with its leading whitespace removed: a suffix of `s` that does not start with whitespace. */
  function TrimStart(s: string): (r: string)
    ensures |r| <= |s| && r == s[|s| - |r|..]
    ensures r == [] || !IsWhitespace(r[0])
  {
    if |s| > 0 && IsWhitespace(s[0]) then TrimStart(s[1..]) else s
  }

  /** `s` with its trailing whitespace removed: a prefix of `s` that does not end with whitespace. */
  function TrimEnd(s: string): (r: string)
    ensures |r| <= |s| && r == s[..|r|]
    ensures r == [] || !IsWhitespace(r[|r| - 1])
  {
    if |s| > 0 && IsWhitespace(s[|s| - 1]) then TrimEnd(s[..|s| - 1]) else s
  }

  /** What `TrimStart` cuts off is all whitespace. */
  lemma {:induction false} TrimStartCutsBlank(s: string)
    ensures AllWhitespace(s[..|s| - |TrimStart(s)|])
  {
    if |s| > 0 && IsWhitespace(s[0]) {
      var k := |s| - |TrimStart(s)|;
      TrimStartCutsBlank(s[1..]);
      forall j | 0 <= j < k
        ensures IsWhitespace(s[..k][j])
      {
        if j > 0 {
          assert s[..k][j] == s[1..][..k - 1][j - 1];
        }
      }
    }
  }

  /** What `TrimEnd` cuts off is all whitespace. */
  lemma {:induction false} TrimEndCutsBlank(s: string)
    ensures AllWhitespace(s[|TrimEnd(s)|..])
  {
    if |s| > 0 && IsWhitespace(s[|s| - 1]) {
      var k := |TrimEnd(s)|;
      var init := s[..|s| - 1];
      TrimEndCutsBlank(init);
      forall j | 0 <= j < |s| - k
        ensures IsWhitespace(s[k..][j])
      {
        if k + j < |s| - 1 {
          assert s[k..][j] == init[k..][j];
        }
      }
    }
  }

  /** `r` is what is left of `s` once some whitespace is cut from each end. */
  predicate IsCutOf(r: string, s: string) {
    exists i :: 0 <= i && i + |r| <= |s| && r == s[i..i + |r|]
                && AllWhitespace(s[..i]) && AllWhitespace(s[i + |r|..])
  }

  /** Naming the cut point `i` establishes `IsCutOf`. */
  lemma CutAt(r: string, s: string, i: nat)
    requires i + |r| <= |s| && r == s[i..i + |r|]
    requires AllWhitespace(s[..i]) && AllWhitespace(s[i + |r|..])
    ensures IsCutOf(r, s)
  {
  }

  /**
   * `str::trim`: the infix of `s` that remains once the whitespace on both
   * ends is cut off. It is empty exactly when `s` is all whitespace.
   */
  function Trim(s: string): (r: string)
    ensures Trimmed(r)
    ensures IsCutOf(r, s)
    ensures r == [] <==> AllWhitespace(s)
  {
    TrimFacts(s);
    TrimEnd(TrimStart(s))
  }

  /** The two one-sided trims together meet the contract of `Trim`. */
  lemma TrimFacts(s: string)
    ensures Trimmed(TrimEnd(TrimStart(s)))
    ensures IsCutOf(TrimEnd(TrimStart(s)), s)
    ensures TrimEnd(TrimStart(s)) == [] <==> AllWhitespace(s)
  {
    var t := TrimStart(s);
    var r := TrimEnd(t);
    var i := |s| - |t|;
    TrimStartCutsBlank(s);
    TrimEndCutsBlank(t);
    PrefixOfSuffix(s, i, t, r);
    CutAt(r, s, i);
    TrimEmptyIffBlank(s);
  }

  /** A prefix `r` of the suffix `t` of `s` starting at `i` is the infix of `s` at `i`, followed by the rest of `t`. */
  lemma PrefixOfSuffix(s: string, i: nat, t: string, r: string)
    requires i <= |s| && t == s[i..]
    requires |r| <= |t| && r == t[..|r|]
    ensures i + |r| <= |s| && r == s[i..i + |r|]
    ensures s[i + |r|..] == t[|r|..]
  {
  }

  /** Both trims together remove everything exactly when everything is whitespace. */
  lemma TrimEmptyIffBlank(s: string)
    ensures TrimEnd(TrimStart(s)) == [] <==> AllWhitespace(s)
  {
    var t := TrimStart(s);
    var i := |s| - |t|;
    if AllWhitespace(s) {
      TrimStartOfBlank(s);
    } else if TrimEnd(t) == [] {
      TrimStartCutsBlank(s);
      TrimEndOfNothing(t);
      BlankAroundSplit(s, i);
    }
  }

  /** Only an all-whitespace string trims to nothing at the end. */
  lemma TrimEndOfNothing(t: string)
    requires TrimEnd(t) == []
    ensures AllWhitespace(t)
  {
    TrimEndCutsBlank(t);
    assert t[0..] == t;
  }

  /** A string is all whitespace when both sides of some split are. */
  lemma BlankAroundSplit(s: string, i: nat)
    requires i <= |s| && AllWhitespace(s[..i]) && AllWhitespace(s[i..])
    ensures AllWhitespace(s)
  {
    assert s == s[..i] + s[i..];
    AllWhitespaceConcat(s[..i], s[i..]);
  }

  lemma {:induction false} TrimStartOfBlank(s: string)
    requires AllWhitespace(s)
    ensures TrimStart(s) == []
  {
    if |s| > 0 {
      assert AllWhitespace(s[1..]) by {
        forall k | 0 <= k < |s[1..]|
          ensures IsWhitespace(s[1..][k])
        {
          assert s[1..][k] == s[k + 1];
        }
      }
      TrimStartOfBlank(s[1..]);
    }
  }

  lemma AllWhitespaceConcat(a: string, b: string)
    ensures AllWhitespace(a + b) <==> AllWhitespace(a) && AllWhitespace(b)
  {
    if AllWhitespace(a) && AllWhitespace(b) {
      forall k | 0 <= k < |a + b|
        ensures IsWhitespace((a + b)[k])
      {
        if k >= |a| {
          assert (a + b)[k] == b[k - |a|];
        }
      }
    }
    if AllWhitespace(a + b) {
      forall k | 0 <= k < |a|
        ensures IsWhitespace(a[k])
      {
        assert (a + b)[k] == a[k];
      }
      forall k | 0 <= k < |b|
        ensures IsWhitespace(b[k])
      {
        assert (a + b)[|a| + k] == b[k];
      }
    }
  }

  /** A string already free of surrounding whitespace is left as it is. */
  lemma TrimKeepsTrimmed(s: string)
    requires Trimmed(s)
    ensures Trim(s) == s
  {
    assert TrimStart(s) == s;
    assert TrimEnd(s) == s;
  }

  /** Trimming twice is trimming once. */
  lemma TrimIdempotent(s: string)
    ensures Trim(Trim(s)) == Trim(s)
  {
    TrimKeepsTrimmed(Trim(s));
  }
}

=== FILE: view_app.dfy ===
/**
 * The application shell (src/view/mod.rs): one screen at a time, messages
 * routed to the screen they are addressed to, and the switch from character
 * creation to the quest when a character is submitted.
 */
module AppView {
  import opened Wrappers
  import CharacterView
  import QuestView

  datatype Screen = CharacterCreate(form: CharacterView.Form) | Quest(log: QuestView.QuestLog)

  datatype State = State(screen: Screen)

  datatype Message = CharacterCreateMessage(create: CharacterView.Message) | QuestMessage(quest: QuestView.Message)

  /** The task handed to the runtime, tagged with the screen its messages will be routed to. */
  datatype Effect = NoEffect | CharacterEffect | QuestEffect(task: QuestView.Task)

  /** `State::new`: the character-creation screen with a fresh form, and nothing to run. */
  function NewApp(): (r: (State, Effect))
    ensures r.0.screen.CharacterCreate? && r.0.screen.form == CharacterView.New()
    ensures r.1 == NoEffect
  {
    (State(CharacterCreate(CharacterView.New())), NoEffect)
  }

  /** A message the quest screen would panic on. */
  predicate QuestPanics(st: State, m: Message) {
    st.screen.Quest? && m.QuestMessage? && QuestView.LoadFailed(m.quest)
  }

  /**
   * `update`: a message for the screen not on display is dropped; a submitted
   * character replaces the form with a quest screen for that character and
   * starts loading its game; any other outcome keeps the screen's variant.
   */
  function Update(st: State, m: Message): (r: (State, Effect))
    requires !QuestPanics(st, m)
    ensures m.CharacterCreateMessage? && st.screen.Quest? ==> r == (st, NoEffect)
    ensures m.QuestMessage? && st.screen.CharacterCreate? ==> r == (st, NoEffect)
    ensures m.CharacterCreateMessage? && st.screen.CharacterCreate? ==>
              var (form, action) := CharacterView.Update(st.screen.form, m.create);
              && (action.Some? && action.value.SubmitCharacter? ==>
                    var (log, task) := QuestView.New(action.value.pc);
                    r == (State(Quest(log)), QuestEffect(task)))
              && (action.None? ==> r == (State(CharacterCreate(form)), NoEffect))
              && (action == Some(CharacterView.Run) ==> r == (State(CharacterCreate(form)), CharacterEffect))
    ensures m.QuestMessage? && st.screen.Quest? ==>
              var (log, task) := QuestView.Update(st.screen.log, m.quest);
              r.0 == State(Quest(log)) && r.1 == (if task.Some? then QuestEffect(task.value) else NoEffect)
  {
    match m
    case CharacterCreateMessage(msg) =>
      if st.screen.CharacterCreate? then
        var (form, action) := CharacterView.Update(st.screen.form, msg);
        match action
        case None => (State(CharacterCreate(form)), NoEffect)
        case Some(a) =>
          if a.Run? then (State(CharacterCreate(form)), CharacterEffect)
          else
            var (log, task) := QuestView.New(a.pc);
            (State(Quest(log)), QuestEffect(task))
      else
        (st, NoEffect)
    case QuestMessage(msg) =>
      if st.screen.Quest? then
        var (log, task) := QuestView.Update(st.screen.log, msg);
        (State(Quest(log)), if task.Some? then QuestEffect(task.value) else NoEffect)
      else
        (st, NoEffect)
  }

  /** No message of `ms` is a failed game load. */
  predicate NoLoadFailure(ms: seq<Message>) {
    forall i :: 0 <= i < |ms| ==> !(ms[i].QuestMessage? && QuestView.LoadFailed(ms[i].quest))
  }

  /** The application after a run of messages, in the order the runtime delivers them. */
  function Drive(st: State, ms: seq<Message>): (r: State)
    requires NoLoadFailure(ms)
    ensures st.screen.Quest? ==> r.screen.Quest?
    decreases |ms|
  {
    if |ms| == 0 then st else Drive(Update(st, ms[0]).0, ms[1..])
  }

  /** Some message of `ms` submits the character form. */
  predicate AnySubmit(ms: seq<Message>) {
    exists i :: 0 <= i < |ms| && ms[i] == CharacterCreateMessage(CharacterView.Submit)
  }

  /** On the creation screen, only a submit leaves it. */
  lemma CreateScreenStep(st: State, m: Message)
    requires st.screen.CharacterCreate?
    ensures Update(st, m).0.screen.Quest? <==> m == CharacterCreateMessage(CharacterView.Submit)
  {
    if m.CharacterCreateMessage? {
      var action := CharacterView.Update(st.screen.form, m.create).1;
      assert action.Some? && action.value.SubmitCharacter? <==> m.create.Submit?;
    }
  }

  lemma AnySubmitCons(ms: seq<Message>)
    requires |ms| > 0
    ensures AnySubmit(ms) <==> ms[0] == CharacterCreateMessage(CharacterView.Submit) || AnySubmit(ms[1..])
  {
    if AnySubmit(ms[1..]) {
      var i :| 0 <= i < |ms[1..]| && ms[1..][i] == CharacterCreateMessage(CharacterView.Submit);
      assert ms[i + 1] == CharacterCreateMessage(CharacterView.Submit);
    }
    if AnySubmit(ms) && ms[0] != CharacterCreateMessage(CharacterView.Submit) {
      var i :| 0 <= i < |ms| && ms[i] == CharacterCreateMessage(CharacterView.Submit);
      assert ms[1..][i - 1] == CharacterCreateMessage(CharacterView.Submit);
    }
  }

  /**
   * From the creation screen, the quest screen is reached exactly when the
   * form is submitted; until then every message leaves the form in charge.
   */
  lemma {:induction false} QuestReachedIffSubmitted(st: State, ms: seq<Message>)
    requires st.screen.CharacterCreate?
    requires NoLoadFailure(ms)
    ensures Drive(st, ms).screen.Quest? <==> AnySubmit(ms)
    decreases |ms|
  {
    if |ms| > 0 {
      var st' := Update(st, ms[0]).0;
      CreateScreenStep(st, ms[0]);
      AnySubmitCons(ms);
      assert NoLoadFailure(ms[1..]) by {
        assert forall i :: 0 <= i < |ms[1..]| ==> ms[1..][i] == ms[i + 1];
      }
      assert Drive(st, ms) == Drive(st', ms[1..]);
      if st'.screen.CharacterCreate? {
        QuestReachedIffSubmitted(st', ms[1..]);
      }
    }
  }

  /** A submit on the creation screen opens a waiting quest screen and loads a game for the form's character. */
  lemma SubmitOpensQuest(st: State)
    requires st.screen.CharacterCreate?
    ensures Update(st, CharacterCreateMessage(CharacterView.Submit))
            == (State(Quest(QuestView.QuestLog(None, [], true))),
                QuestEffect(QuestView.LoadGame(CharacterView.Submitted(st.screen.form))))
  {
    var pc := CharacterView.Submitted(st.screen.form);
    assert CharacterView.Update(st.screen.form, CharacterView.Submit).1 == Some(CharacterView.SubmitCharacter(pc));
    assert QuestView.New(pc) == (QuestView.QuestLog(None, [], true), QuestView.LoadGame(pc));
  }

  /** Submitting the untouched opening form starts a quest for Jim the Human Fighter. */
  lemma OpeningSubmit()
    ensures var jim := CharacterView.Submitted(CharacterView.New());
            var r := Update(NewApp().0, CharacterCreateMessage(CharacterView.Submit));
            && jim.Name() == "Jim" && jim.Race() == "Human" && jim.Class() == "Fighter"
            && r.0 == State(Quest(QuestView.QuestLog(None, [], true)))
            && r.1 == QuestEffect(QuestView.LoadGame(jim))
  {
    var st := NewApp().0;
    SubmitOpensQuest(st);
    CharacterView.BlankFormSubmitsJim();
    var jim := CharacterView.Submitted(st.screen.form);
    assert jim.Name() == "Jim" && jim.Race() == "Human" && jim.Class() == "Fighter";
  }
}

=== FILE: view_character.dfy ===
/**
 * The character-creation form (src/view/character.rs): three free-text
 * fields, and a `Submit` that trims them, substitutes a default for a blank
 * one, and hands the built character to the application.
 */
module CharacterView {
  import opened Wrappers
  import Text
  import Character

  /** The three text inputs, exactly as typed. */
  datatype Form = Form(nameField: string, raceField: string, classField: string)

  datatype Message = NameChange(content: string) | RaceChange(content: string) | ClassChange(content: string) | Submit

  /** What the form asks of the application; `Run`'s task is not modelled. */
  datatype Action = Run | SubmitCharacter(pc: Character.PlayerCharacter)

  const DefaultName: string := "Jim"
  const DefaultRace: string := "Human"
  const DefaultClass: string := "Fighter"

  /** A fresh form: every field empty. */
  function New(): (f: Form)
    ensures f.nameField == [] && f.raceField == [] && f.classField == []
  {
    Form([], [], [])
  }

  /** The three fallbacks are themselves non-empty and carry no surrounding whitespace. */
  lemma DefaultsAreClean()
    ensures DefaultName != [] && Text.Trimmed(DefaultName) && !Text.AllWhitespace(DefaultName)
    ensures DefaultRace != [] && Text.Trimmed(DefaultRace) && !Text.AllWhitespace(DefaultRace)
    ensures DefaultClass != [] && Text.Trimmed(DefaultClass) && !Text.AllWhitespace(DefaultClass)
  {
    Text.LetterIsNotWhitespace('J');
    Text.LetterIsNotWhitespace('m');
    Text.LetterIsNotWhitespace('H');
    Text.LetterIsNotWhitespace('n');
    Text.LetterIsNotWhitespace('F');
    Text.LetterIsNotWhitespace('r');
  }

  /**
   * One field as `Submit` reads it: the trimmed text, or `fallback` when
   * nothing but whitespace was typed. The result is never empty and never
   * starts or ends with whitespace.
   */
  function FieldOrDefault(field: string, fallback: string): (r: string)
    requires fallback != [] && Text.Trimmed(fallback)
    ensures r != [] && Text.Trimmed(r)
    ensures Text.AllWhitespace(field) ==> r == fallback
    ensures !Text.AllWhitespace(field) ==> Text.IsCutOf(r, field)
  {
    var t := Text.Trim(field);
    if t == [] then fallback else t
  }

  /** The character `Submit` builds from the form's current fields. */
  function Submitted(f: Form): (pc: Character.PlayerCharacter)
    ensures pc.Name() != [] && pc.Race() != [] && pc.Class() != []
    ensures Text.Trimmed(pc.Name()) && Text.Trimmed(pc.Race()) && Text.Trimmed(pc.Class())
  {
    DefaultsAreClean();
    var name := FieldOrDefault(f.nameField, DefaultName);
    var race := FieldOrDefault(f.raceField, DefaultRace);
    var characterClass := FieldOrDefault(f.classField, DefaultClass);
    Character.NewBuilder(name).WithRace(race).WithClass(characterClass).Build()
  }

  /**
   * `CharacterCreate::update`: an edit overwrites its own field and asks for
   * nothing; `Submit` leaves the form as it is and hands over a character
   * whose fields are non-empty and free of surrounding whitespace.
   */
  function Update(f: Form, m: Message): (r: (Form, Option<Action>))
    ensures m.NameChange? ==> r == (f.(nameField := m.content), None)
    ensures m.RaceChange? ==> r == (f.(raceField := m.content), None)
    ensures m.ClassChange? ==> r == (f.(classField := m.content), None)
    ensures m.Submit? ==> r.0 == f && r.1 == Some(SubmitCharacter(Submitted(f)))
    ensures m.Submit? ==> var pc := r.1.value.pc;
              pc.Name() != [] && pc.Race() != [] && pc.Class() != []
              && Text.Trimmed(pc.Name()) && Text.Trimmed(pc.Race()) && Text.Trimmed(pc.Class())
  {
    match m
    case NameChange(content) => (f.(nameField := content), None)
    case RaceChange(content) => (f.(raceField := content), None)
    case ClassChange(content) => (f.(classField := content), None)
    case Submit => (f, Some(SubmitCharacter(Submitted(f))))
  }

  /** A blank field falls back to its default; any other field is used trimmed. */
  lemma SubmitFallsBack(f: Form)
    ensures var pc := Submitted(f);
            && pc.Name() == (if Text.AllWhitespace(f.nameField) then DefaultName else Text.Trim(f.nameField))
            && pc.Race() == (if Text.AllWhitespace(f.raceField) then DefaultRace else Text.Trim(f.raceField))
            && pc.Class() == (if Text.AllWhitespace(f.classField) then DefaultClass else Text.Trim(f.classField))
  {
  }

  /** A submitted field equals its default exactly when it was blank or trims to the default. */
  lemma NameIsDefaultIff(f: Form)
    ensures Submitted(f).Name() == DefaultName
            <==> Text.AllWhitespace(f.nameField) || Text.Trim(f.nameField) == DefaultName
  {
  }

  /** Fields typed without surrounding whitespace reach the character unchanged. */
  lemma CleanFieldsKept(f: Form)
    requires f.nameField != [] && Text.Trimmed(f.nameField)
    requires f.raceField != [] && Text.Trimmed(f.raceField)
    requires f.classField != [] && Text.Trimmed(f.classField)
    ensures Submitted(f) == Character.PlayerCharacter(f.nameField, f.raceField, f.classField)
  {
    Text.TrimKeepsTrimmed(f.nameField);
    Text.TrimKeepsTrimmed(f.raceField);
    Text.TrimKeepsTrimmed(f.classField);
  }

  /** Submitting a fresh form yields Jim the Human Fighter. */
  lemma BlankFormSubmitsJim()
    ensures Update(New(), Submit).1 == Some(SubmitCharacter(Character.PlayerCharacter("Jim", "Human", "Fighter")))
  {
    assert Text.AllWhitespace([]);
  }
}

=== FILE: view_quest.dfy ===
/**
 * The quest screen's update logic (src/view/quest.rs): a handle to the
 * running game once it has loaded, the player's input line, and a `waiting`
 * flag that is up while a turn is in flight. Tasks are named by what they
 * would do; running them is not modelled.
 */
module QuestView {
  import opened Wrappers
  import Character
  import opened Errors

  /** A handle to a running game actor; only its identity matters here. */
  datatype GameHandle = GameHandle(id: nat)

  datatype QuestLog = QuestLog(game: Option<GameHandle>, inputField: string, waiting: bool)

  datatype Message =
    | Loaded(result: Result<GameHandle, GameError>)
    | Started(outcome: Result<(), GameError>)
    | InputFieldChange(content: string)
    | InputSubmit
    | Response

  /** The work the screen hands to the runtime. */
  datatype Task =
    | LoadGame(character: Character.PlayerCharacter)
    | StartGame(game: GameHandle)
    | SendInputThenSnap(game: GameHandle, content: string)
    | SnapLogToEnd

  /** The one message whose handling panics: a game that failed to load. */
  predicate LoadFailed(m: Message) {
    m.Loaded? && m.result.Err?
  }

  /** `QuestLog::new`: no game yet, an empty input line, waiting, and a task loading the game for `pc`. */
  function New(pc: Character.PlayerCharacter): (r: (QuestLog, Task))
    ensures r.0.game.None? && r.0.inputField == [] && r.0.waiting
    ensures r.1 == LoadGame(pc)
  {
    (QuestLog(None, [], true), LoadGame(pc))
  }

  /**
   * `QuestLog::update`. A loaded handle is stored and started; a finished
   * start or turn lowers `waiting`, whatever its result; an edit replaces the
   * input line; a submit with a game present sends the line, clears it and
   * raises `waiting`, and without a game does nothing.
   */
  function Update(q: QuestLog, m: Message): (r: (QuestLog, Option<Task>))
    requires !LoadFailed(m)
    ensures m.Loaded? ==> r == (q.(game := Some(m.result.value)), Some(StartGame(m.result.value)))
    ensures m.Started? ==> r == (q.(waiting := false), None)
    ensures m.InputFieldChange? ==> r == (q.(inputField := m.content), None)
    ensures m.InputSubmit? && q.game.Some? ==>
              r == (q.(inputField := [], waiting := true), Some(SendInputThenSnap(q.game.value, q.inputField)))
    ensures m.InputSubmit? && q.game.None? ==> r == (q, None)
    ensures m.Response? ==> r == (q.(waiting := false), Some(SnapLogToEnd))
  {
    match m
    case Loaded(result) => (q.(game := Some(result.value)), Some(StartGame(result.value)))
    case Started(_) => (q.(waiting := false), None)
    case InputFieldChange(content) => (q.(inputField := content), None)
    case InputSubmit =>
      if q.game.Some? then
        (q.(inputField := [], waiting := true), Some(SendInputThenSnap(q.game.value, q.inputField)))
      else
        (q, None)
    case Response => (q.(waiting := false), Some(SnapLogToEnd))
  }

  /** The screen after a run of messages, none of them a failed load. */
  function Drive(q: QuestLog, ms: seq<Message>): (r: QuestLog)
    requires forall i :: 0 <= i < |ms| ==> !LoadFailed(ms[i])
    ensures q.game.Some? ==> r.game.Some?
    decreases |ms|
  {
    if |ms| == 0 then q else Drive(Update(q, ms[0]).0, ms[1..])
  }

  /** Some message of `ms` delivers a game. */
  predicate AnyLoaded(ms: seq<Message>) {
    exists i :: 0 <= i < |ms| && ms[i].Loaded?
  }

  /** A game is present after a run exactly when one was before or some message loaded one. */
  lemma {:induction false} GamePresentIff(q: QuestLog, ms: seq<Message>)
    requires forall i :: 0 <= i < |ms| ==> !LoadFailed(ms[i])
    ensures Drive(q, ms).game.Some? <==> q.game.Some? || AnyLoaded(ms)
    decreases |ms|
  {
    if |ms| > 0 {
      var q' := Update(q, ms[0]).0;
      GamePresentIff(q', ms[1..]);
      if AnyLoaded(ms[1..]) {
        var i :| 0 <= i < |ms[1..]| && ms[1..][i].Loaded?;
        assert ms[i + 1].Loaded?;
      }
      if AnyLoaded(ms) && !ms[0].Loaded? {
        var i :| 0 <= i < |ms| && ms[i].Loaded?;
        assert ms[1..][i - 1].Loaded?;
      }
    }
  }

  /** Before any game has loaded, submitting the input line neither sends nor clears it. */
  lemma SubmitWithoutGameIgnored(pc: Character.PlayerCharacter)
    ensures var q := New(pc).0;
            Update(q, InputSubmit) == (q, None)
  {
  }

  /**
   * A full turn on a loaded screen: the typed line is sent to the game the
   * screen holds, the line is cleared while the screen waits, and the reply
   * lowers `waiting` and snaps the log to its end.
   */
  lemma TurnRoundTrip(q: QuestLog, g: GameHandle, line: string)
    ensures var loaded := Update(q, Loaded(Ok(g))).0;
            var typed := Update(loaded, InputFieldChange(line)).0;
            var sent := Update(typed, InputSubmit);
            var answered := Update(sent.0, Response);
            && sent.1 == Some(SendInputThenSnap(g, line))
            && sent.0.inputField == [] && sent.0.waiting
            && answered.0 == QuestLog(Some(g), [], false)
            && answered.1 == Some(SnapLogToEnd)
  {
  }
}

=== FILE: wrappers.dfy ===
/** Rust's `Option` and `Result`, the two failure-carrying shapes the game uses. */
module Wrappers {

  datatype Option<+T> = None | Some(value: T) {

    /** The carried value, or `default` when there is none. */
    function GetOr(default: T): T {
      match this
      case Some(v) => v
      case None => default
    }
  }

  datatype Result<+T, +E> = Ok(value: T) | Err(error: E) {

    predicate IsFailure() {
      Err?
    }

    function PropagateFailure<U>(): Result<U, E>
      requires Err?
    {
      Err(error)
    }

    function Extract(): T
      requires Ok?
    {
      value
    }
  }
}
